=== FILE: README.md ===
# monbudget ledger core in Dafny

This project models the non-interface logic of the monbudget budget manager
(`budget.py`). That logic covers the `BudgetManager` account registry and
operations table, the bank-statement importer, and the small rules inside
the Tk windows: the category list append, the categorisation window's filter,
keyword suggestion and "Next" step, and the result mapping of the
unrecognised-account dialog.

Everything is modelled as immutable values and pure functions:

- `wrappers.dfy`: `Option` and `Result`. Module `Scan` holds `First`, the
  ordered "first element that passes, then break" search that the program
  uses in four places.
- `text.dfy`: Python's `in` on strings, ASCII `upper`/`lower`, the `\s`
  character class, and `split(".")[-1]`.
- `amounts.dfy`: amount-cell normalisation (`,` becomes `.`, whitespace is
  removed), then `pd.to_numeric(..., errors="coerce")` as an exact decimal
  parser in which failure is `Missing` (NaN). There is also a renderer that
  the parser inverts.
- `ledger.dfy`: the `Manager` state, with accounts kept as a sequence in dict
  insertion order, plus `add_account`, `add_operation` and the category
  dialog's save.
- `dialects.dfy`: the `DICTBANK` registry, dialect detection, and
  `_detect_header_row` for spreadsheets and for delimited text.
- `import.dfy`: `import_operations_from_excel` and the lemmas relating
  imports to each other and to the starting state.
- `categorize.dfy`: the categorisation window's filter, suggestion, step and a
  whole session.

An import returns `Imported(state)` or `Raised(error, state)`. When the
program raises, `state` is what `self` holds at that moment. The program
changes the accounts before some of its raises:

- a new account created through the dialog stays registered;
- the balance snapshots are appended before dates are converted and before
  the name and amount columns are read.

So a failed import can still have changed the accounts, but never the
operations table (`Import.ImportOperations`, `ImportProperties.KnownAccountGetsSnapshots`).

`budget.py` lacks several features a bank-statement importer often has, and
the model follows the code:

- There is no duplicate suppression. Re-importing a statement appends its
  rows again (`ImportProperties.ReimportAppendsAgain`).
- There is no opening-balance back-calculation and no synthetic "Initial
  balance" row.
- There are no virtual transfers.
- A dialect is recognised by its date column (budget.py:94), not its amount
  column.
- Manually mapped rows get no account. Their category goes into a stray
  "Catégorie" column and `category` stays null.
- `add_operation` does not check the category against the category list.
- Rows whose amount does not parse are kept with a missing amount. They are
  not dropped or counted.

The collaborator is the unrecognised-account dialog. It is an input `Answer`:
`Associated(name)`, `Created(name)`, `Cancelled` or `Closed` (the window was
closed without a recorded choice). The dialog never records an empty name,
so an empty name ends like `Closed`. A new account created through the
dialog is seeded with the statement's snapshots, and then the import appends
the same snapshots again. Its history therefore holds them twice
(`ImportProperties.CreatedAccountHoldsSnapshotsTwice`).

## Model

| member | source | states |
|---|---|---|
| `Scan.First` | budget.py:104-107 | the index returned is the first whose element passes the test; no earlier element passes; None exactly when none passes (the ordered scan behind account matching, dialect detection, header location and rule matching) |
| `Text.AfterLastDot` | budget.py:80 | the extension is a dot-free suffix of the path, preceded by a '.' unless it is the whole path |
| `Text.AfterLastDotOfSuffix` | budget.py:80 | for any stem, the extension of stem + "." + ext is ext when ext holds no dot |
| `Import.KindOfSuffix` | budget.py:80-88 | the reader chosen depends only on the lower-cased text after the last '.', whatever the stem holds |
| `Text.Upper` | budget.py:590 | `str.upper()`: same length, each of a-z becomes its capital, every other character is unchanged |
| `Text.LowerAppend` | budget.py:80 | lower-casing distributes over concatenation |
| `Import.XlsFamilyIsSpreadsheet` | budget.py:80-84 | every extension starting with "xls" or "XLS" (.xlsx, .xlsm, .xlsb, .XLSX, ...) selects the spreadsheet reader, whatever the stem |
| `Import.CsvIsDelimited` | budget.py:80-86 | every extension that lower-cases to "csv" selects the delimited-text reader |
| `Import.OtherExtensionUnsupported` | budget.py:80-88 | every extension whose lower-cased form neither starts with "xls" nor is "csv" is refused as unsupported |
| `Import.KindOfExtension` | budget.py:80-88 | .XLSX and .xls give spreadsheets, .Csv gives delimited text, .txt and .xlcsv are unsupported, whatever the stem |
| `Amounts.Normalise` | budget.py:125-128 | normalised amount text holds no ',' and no whitespace, is no longer than the cell, and every character other than '.' comes from the cell |
| `Amounts.NormaliseAppend` | budget.py:125-128 | normalisation distributes over concatenation, so it works character by character |
| `Amounts.NormaliseClean` | budget.py:125-128 | text without commas and whitespace is left unchanged |
| `Amounts.NormaliseIdempotent` | budget.py:125-128 | normalising twice equals normalising once |
| `Amounts.NormaliseIgnoresSpace` | budget.py:128 | deleting one whitespace character anywhere in a cell does not change its normalised text |
| `Amounts.ParseDecimal` | budget.py:125-130 | a successful parse implies the text holds a digit |
| `Amounts.ParseUnsignedAccepts` | budget.py:125-130 | the unsigned parser succeeds exactly on digits with at most one '.' and at least one digit |
| `Amounts.ParseDecimalAccepts` | budget.py:125-130 | parsing succeeds exactly on the number grammar: an optional '-' or '+', then digits with at most one '.' and at least one digit |
| `Amounts.CoerceAccepts` | budget.py:125-130 | a cell becomes a number exactly when its normalised text fits the number grammar, and is missing otherwise |
| `Amounts.TwoPointsRejected` | budget.py:125-130 | an unsigned body holding two '.' is rejected |
| `Amounts.TwoPointsMissing` | budget.py:125-130 | a cell whose normalised text holds two '.' coerces to missing |
| `Amounts.GroupedThousandsMissing` | budget.py:125-130 | digit groups joined by '.' and ',' in either order (thousands separator plus decimal mark) coerce to missing |
| `Amounts.GroupedExamples` | budget.py:125-130 | "1.234,56" and "1,234.56" both coerce to missing |
| `Amounts.PlusSignValue` | budget.py:125-130 | "+5" parses as 5 |
| `Amounts.BareFractionValue` | budget.py:125-130 | ".5" parses as 0.5, written with one digit after the point |
| `Amounts.TrailingPointValue` | budget.py:125-130 | "5." parses as 5 |
| `Amounts.LeadingZerosAccepted` | budget.py:125-130 | "007" parses as 7 |
| `Amounts.NotNumbers` | budget.py:125-130 | ".", "" and "+-5" do not parse |
| `Amounts.Coerce` | budget.py:125-130 | a cell coerces to a number or to missing, never to raw text; a number implies the cell holds a digit, so text without digits becomes missing and not zero |
| `Amounts.ParseRender` | budget.py:125-130 | parsing a rendered decimal gives back that decimal |
| `Amounts.CoerceRender` | budget.py:125-130 | a rendered decimal survives normalisation and coercion unchanged |
| `Amounts.CoerceDecimalComma` | budget.py:125-130 | a decimal written with a decimal comma coerces to the same number as with a point |
| `Amounts.Digits` | budget.py:125-130 | part of the renderer that `ParseRender` shows the parser inverts: the digits of n form a non-empty digit run whose value is n |
| `Amounts.LeadingZerosValue` | budget.py:125-130 | part of the renderer that `ParseRender` shows the parser inverts: leading zeros do not change the value of a digit run |
| `Ledger.Init` | budget.py:28-41 | a new manager has no accounts, no operations, and eight distinct categories starting with "Revenus" and including "NC" |
| `Ledger.IndexOf` | budget.py:49 | the key's first position in the dict, None exactly when the key is absent |
| `Ledger.Put` | budget.py:816 | assigning a present key keeps its place and length, a new key goes last; afterwards the key looks up to the new entry; other keys are untouched; names stay unique |
| `Ledger.AddAccount` | budget.py:49-54 | refused with DuplicateAccount exactly when the name exists; otherwise exactly one entry is added last, holding the number and the given history (or a zero snapshot dated now), and earlier entries, categories and operations are unchanged |
| `Ledger.AddAccountAsWritten` | budget.py:49-54 | a duplicate name is refused; without a balance the call always fails; a fresh name with a balance always succeeds and appends exactly that entry, changing nothing else |
| `Ledger.AsWrittenAgreesWithBalance` | budget.py:49-54 | with an explicit balance, the program's `add_account` and the corrected one give the same result |
| `Ledger.DefaultSeedRaises` | budget.py:51-52 | a fresh name with no balance is refused with ScalarOnlyFrame |
| `Ledger.AddAccountThenLookup` | budget.py:49-54 | after a successful add, names are still unique and the name looks up to an entry with the given number |
| `Ledger.AddOperation` | budget.py:60-70 | fails with UnknownAccount exactly when the account is not registered; otherwise the table grows by one, earlier rows are unchanged, the last row carries the given date, name, account, amount, category and monthly flag, and the accounts and categories are unchanged |
| `Ledger.AddOperationKeepsReferences` | budget.py:60-70 | if every row names a registered account before `add_operation`, that still holds after it |
| `Ledger.AddCategory` | budget.py:412-418 | refused exactly when the name is empty or already listed; otherwise appended last with earlier entries kept, so the list stays duplicate-free |
| `Dialects.DetectDialect` | budget.py:93-94 | the dialect chosen is the first registered one whose date column the table has; none before it matches; None exactly when none matches |
| `Dialects.BnpTakesPriority` | budget.py:93-94 | a table with both banks' date columns is read as BNP |
| `Dialects.BoursoBankWhenNoBnp` | budget.py:93-94 | a table with BoursoBank's date column and not BNP's is read as BoursoBank |
| `Dialects.HeaderRowOfSheet` | budget.py:184-193 | the result is below 10; if one of the first ten rows has a cell containing a date header, the result is the first such row; otherwise it is 0 |
| `Dialects.HeaderRowOfLines` | budget.py:194-206 | the result is the first line containing a date header among the lines the reader delivered before its decoder raised, or 0; no earlier line matches; it never lies at or past the count of delivered lines |
| `Import.ColumnIndex` | budget.py:94 | a header's position is the first one holding that name, None exactly when the name is not a header |
| `Import.Column` | budget.py:94 | a column is found exactly when its name is among the table's columns; it has one cell per row, and cell i is row i's cell at the header's position |
| `Import.ExtractStatement` | budget.py:95-101 | BoursoBank: succeeds exactly when accountNum and accountbalance exist and there is a row; each missing column is named in the error; the number is the first row's accountNum and snapshot i pairs row i's date and balance cells. BNP: succeeds exactly for a spreadsheet with a first line of more than five cells and at least one row; the number is cell 2 and the one snapshot holds cell 5, dated by the last row; a delimited-text file fails |
| `Import.FindByNumber` | budget.py:104-107 | the account used is the first in dict order with the statement's number; None exactly when no account has it |
| `Import.ResolveUnknown` | budget.py:796-863 | cancelling gives ImportCancelled and nothing else does; closing the window or an empty name gives SelectionFailed with the accounts unchanged; associating returns the name and changes nothing; creating stores the number and snapshots under the name as a dict assignment and returns it; names stay unique |
| `Import.ResolveAccount` | budget.py:103-112 | a known number resolves to that account without consulting the collaborator; an unknown one is resolved by the collaborator |
| `Import.AppendHistory` | budget.py:114-117 | the named account's history gains the snapshots at its end; every other account is unchanged; names and numbers are kept; a missing key fails |
| `Import.ConvertDates` | budget.py:122 | conversion succeeds exactly when every cell converts; on failure the error names a cell that does not convert |
| `Import.DialectRows` | budget.py:119-134 | succeeds exactly when every date cell converts and the name and amount columns exist; then one row per table row, with the converted date, the name cell, the coerced amount, the resolved account, category "NC" and not monthly; otherwise the error is the date failure, then the missing name column, then the missing amount column |
| `Import.MappedRows` | budget.py:137-149 | succeeds exactly when the three mapped columns exist; rows keep raw date and amount text, no account, a null category and "NC" in the "Catégorie" column |
| `Import.Append` | budget.py:152-158 | zero rows raise "No data loaded" and change nothing, and only zero rows do; otherwise the result is exactly the old state with the rows after the existing ones |
| `Import.ImportStatement` | budget.py:93-135 | the categories are unchanged; a raise leaves the operations unchanged; success appends exactly one row per table row after the old ones; cancelling leaves the whole state unchanged; a recognised file never raises "Mapping required" or "No data loaded" |
| `Import.ImportMapped` | budget.py:137-151 | without a mapping the result is "Mapping required" with nothing changed; any raise changes nothing; success appends one row per table row and keeps the accounts |
| `Import.StatementOutcome` | budget.py:93-135 | a statement that cannot be read raises its error with nothing changed; for an unknown number, cancelling raises ImportCancelled and closing raises SelectionFailed, both with nothing changed; for a known number the snapshots go to that account and the import succeeds exactly when the rows can be built, appending exactly them, and otherwise raises the row error |
| `Import.DialogOutcome` | budget.py:103-135 | for a number no account holds, answered with a name: creating registers the account under the name and associating uses the existing one, and then the snapshots go to it and the import succeeds exactly when the rows can be built, appending exactly them, otherwise raising the row error; associating with a name the registry lacks raises NoSuchAccount with nothing changed |
| `Import.MappedPathOutcome` | budget.py:137-158 | with a mapping, a missing column raises with nothing changed, an empty table raises "No data loaded", and otherwise exactly the mapped rows are appended with nothing else changed |
| `Import.ImportOperations` | budget.py:73-159 | an unsupported extension raises first with nothing changed; categories are never changed; a raise never changes the operations; success keeps the old rows as a prefix and adds one row per table row; names stay unique; "Mapping required" happens exactly when no dialect matches and no mapping is given; a cancel leaves everything unchanged; "No data loaded" happens only on an empty, manually mapped table |
| `ImportProperties.ExtractFailureRaises` | budget.py:93-101 | at the entry point, a recognised table whose statement cannot be read raises that error with nothing changed |
| `ImportProperties.UnknownNumberEmptyNameRaises` | budget.py:103-112 | at the entry point, for a number no account holds, an empty name from the dialog, whether created or associated, raises SelectionFailed with nothing changed |
| `ImportProperties.UnknownNumberDialogRaises` | budget.py:103-112 | at the entry point, for a number no account holds, cancelling the dialog raises ImportCancelled and closing it raises SelectionFailed, with nothing changed |
| `ImportProperties.UnknownNumberDialogImports` | budget.py:103-135 | at the entry point, for a number no account holds: a name created in the dialog is registered with the statement's number and snapshots, an existing name chosen in the dialog is used as is, and then that account gains the snapshots and the import succeeds exactly when the rows can be built, appending exactly them; a chosen name the registry lacks raises NoSuchAccount with nothing changed |
| `ImportProperties.KnownNumberOutcome` | budget.py:103-135 | at the entry point, for a number an account holds, that account gains the snapshots and the import succeeds exactly when the rows can be built, appending exactly them |
| `ImportProperties.MappedImportOutcome` | budget.py:137-158 | at the entry point, an unrecognised table with a mapping raises for a missing column or an empty table and otherwise appends exactly the mapped rows |
| `ImportProperties.KnownNumberIgnoresAnswer` | budget.py:103-112 | when an account has the statement's number, any two collaborator answers give the same outcome |
| `ImportProperties.KnownAccountGetsSnapshots` | budget.py:103-117 | the matched account's history gains the statement's snapshots and every other account is unchanged, even when the import later raises |
| `ImportProperties.CreatedAccountHoldsSnapshotsTwice` | budget.py:110-117 | a new account created through the dialog is registered last with the statement's number, and its history is the snapshots twice |
| `ImportProperties.StatementRowsShape` | budget.py:119-134 | after a successful recognised import, each added row carries its row's converted date, name cell and coerced amount, is "NC" and not monthly, and names an account that exists |
| `ImportProperties.RecognisedRowsShape` | budget.py:119-134 | the same as `StatementRowsShape`, stated for the whole import entry point |
| `ImportProperties.MappedRowsShape` | budget.py:137-149 | after a successful manually mapped import, each added row has no account, a null category, "NC" in "Catégorie" and its raw amount text |
| `ImportProperties.ImportedRowsAwaitCategory` | budget.py:131-149 | every row a successful import adds is in the categorisation window's backlog |
| `ImportProperties.ReimportAppendsAgain` | budget.py:154-158 | importing the same statement twice for a known account succeeds again and appends the same rows a second time |
| `Categorize.UncategorisedRows` | budget.py:602-605 | lists exactly the rows whose category is "NC" or null, each once, in increasing ledger order |
| `Categorize.SuggestIgnoresCase` | budget.py:587-593 | lower-casing a name first changes no suggestion, since matching is on the upper-cased name |
| `Categorize.Suggest` | budget.py:587-593 | with no matching rule the result is "NC"; otherwise it is the category of the first rule, in order, whose keyword occurs in the upper-cased name |
| `Categorize.EarlierRuleWins` | budget.py:612-622 | a name containing "SALAIRE" is suggested "Revenus", whatever later keywords it also contains |
| `Categorize.Open` | budget.py:602-609 | nothing opens exactly when no row is uncategorised; otherwise the window opens at its first entry and visits exactly the uncategorised rows, each once, in increasing ledger order |
| `Categorize.Show` | budget.py:580-593 | the showing row is the one at the cursor; its pre-selected category is the suggestion for its name, so "NC" or the category of a rule that matches it |
| `Categorize.SaveAndNext` | budget.py:566-578 | only the showing row's category changes, to the choice; the table keeps its length; the cursor advances by one; the window finishes exactly after the last row |
| `Categorize.AnswerOne` | budget.py:566-578 | one more press of "Next" gives the next pending row its choice and keeps the earlier answers and every other row |
| `Categorize.RunSession` | budget.py:566-578 | after k presses the first k uncategorised rows carry the k choices; all other rows are unchanged; no row is added, removed or reordered |
| `Categorize.ClearBacklog` | budget.py:566-578 | answering every row with a category other than "NC" leaves no uncategorised row and keeps already categorised rows |

## Findings

| source | as written | input that shows it | evidently intended | confidence | as-written member | corrected member |
|---|---|---|---|---|---|---|
| budget.py:51-52 | without a balance, `add_account` builds its seed history as `pd.DataFrame({'date': now, 'balance': 0})`. Every value there is a scalar, so pandas raises ValueError and the account is never added | `add_account("Cash", "123")` on a manager without "Cash" | the account is registered with one zero-balance snapshot dated now | not executed; high (pandas refuses a frame built only from scalars without an index) | `Ledger.AddAccountAsWritten`, `Ledger.DefaultSeedRaises` | `Ledger.AddAccount` |

## Left out

- Tk windows, menus, tooltips, the table refresh, year/month filters, the
  edit and delete dialogs, and the import retry loop in
  `handle_import_operations`: these are interface code. The collaborator's
  answer and the manual mapping are plain inputs.
- Reading files: `pd.read_excel` and `pd.read_csv` (with the header row as
  `skiprows`), the BNP first-line read, and UTF-8 decoding. The importer
  takes the loaded `Frame` and the first raw row. The CSV header locator
  takes the text lines and the number of lines the reader delivered before
  its decoder raised. The text reader decodes in blocks, so that count
  depends on block boundaries and can be below the bad line's index; the
  model takes it as given and does not compute it from the bytes.
- `pd.to_datetime`: this is a foreign library call. It is the parameter
  `toDatetime`, and None means it raises.
- Pickle save and load, and the matplotlib charts: these are I/O and
  presentation.
- `add_virtual_operation` and `get_category_balance`: they are called but
  never defined in `budget.py`.
- Column schema effects: the model stores rows as records. It does not show
  that a first import by manual mapping leaves the table without a
  `category` column, and that later reads of that column would raise
  KeyError.
- Amounts.ParseDecimal: does not accept exponent notation, "inf" or "nan".
  `pd.to_numeric` turns "1e3" into 1000 and "inf" into infinity, while the
  model makes both missing ("nan" is missing in both). Numbers are exact
  decimals, so binary floating-point rounding is not modelled.
- Text.Upper: maps only a-z. Python's full Unicode upper-casing (ß to SS,
  ı to I) could make more names match a keyword.
- Text.Lower: maps only A-Z. This is enough for the "xls" and "csv" tests,
  because only the Kelvin sign and İ lower-case from non-ASCII to ASCII, and
  neither gives x, l, s, c or v.
- Import.Column: reads a cell missing from a ragged row as "". pandas
  produces rectangular tables with unique column names, so this case does
  not arise there.
- Import.ExtractStatement: every BNP failure to find the account-number or
  balance cell is the single error `MissingCell`. pandas raises IndexError
  for each of them.
- Import.ConvertDates: converts each date cell on its own. `pd.to_datetime`
  on a column infers one format, usually from the first cell, and applies it
  to the whole column, so a cell it would read alone can still fail inside
  the column. The per-cell `toDatetime` parameter does not capture that
  column-wide inference.
- Import.FindByNumber: compares account numbers as text. In the program the
  statement's number is whatever pandas read: `numpy.int64` for a numeric
  accountNum or BNP cell, NaN for an empty one, and without leading zeros
  after `read_csv`. An account added through the Add Account dialog stores
  its number as a `str` (budget.py:379, 384), and `int64(123) == "123"` and
  `nan == nan` are both false. So where the program opens the
  unrecognised-account dialog for such an account, the model finds the
  account. `KnownNumberOutcome`, `KnownNumberIgnoresAnswer` and
  `KnownAccountGetsSnapshots` hold only when the stored number and the
  cell's value compare equal in Python.
- Cell values are text: numbers or timestamps that pandas reads with their
  own types are represented by their text, and `str(cell)` in the header
  locator is the identity.

=== FILE: amounts.dfy ===
/**
 * Amount cells: the normalisation the importer applies before numeric
 * coercion (every ',' becomes '.', every whitespace character is removed)
 * and the coercion itself, where text that is not a number becomes missing.
 * Numbers are exact decimals instead of the program's binary floats.
 */
module Amounts {
  import opened Wrappers
  import opened Scan
  import opened Text

  /** The exact number `units` / 10^`scale`, as written with `scale` digits after the point. */
  datatype Decimal = Decimal(units: int, scale: nat)

  /**
   * One value of the ledger's amount column: a number, a missing value
   * (NaN, what failed coercion yields), or text that was never coerced.
   */
  datatype Amount = Num(value: Decimal) | Missing | AmountText(text: string)

  /** Every ',' replaced by '.', as `replace(",", ".", regex=True)` does. */
  function CommasToPoints(s: string): string {
    seq(|s|, i requires 0 <= i < |s| => if s[i] == ',' then '.' else s[i])
  }

  /** Every '.' replaced by ',': how a French locale writes a decimal. */
  function PointsToCommas(s: string): string {
    seq(|s|, i requires 0 <= i < |s| => if s[i] == '.' then ',' else s[i])
  }

  /** Every whitespace character removed, as `replace(r"\s", "", regex=True)` does. */
  function StripSpaces(s: string): (r: string)
    ensures |r| <= |s|
    ensures forall i | 0 <= i < |r| :: !IsSpace(r[i])
    ensures forall c | c in r :: c in s
  {
    if |s| == 0 then ""
    else if IsSpace(s[0]) then StripSpaces(s[1..])
    else [s[0]] + StripSpaces(s[1..])
  }

  /** The text of an amount cell as the importer hands it to numeric coercion. */
  function Normalise(s: string): (r: string)
    ensures |r| <= |s|
    ensures forall i | 0 <= i < |r| :: r[i] != ',' && !IsSpace(r[i])
    ensures forall c | c in r && c != '.' :: c in s
  {
    var t := CommasToPoints(s);
    assert forall c | c in t && c != '.' :: c in s by {
      forall c | c in t && c != '.' ensures c in s {
        var i :| 0 <= i < |t| && t[i] == c;
        assert s[i] == c;
      }
    }
    assert ',' !in t;
    StripSpaces(t)
  }

  lemma {:induction false} StripSpacesAppend(a: string, b: string)
    ensures StripSpaces(a + b) == StripSpaces(a) + StripSpaces(b)
  {
    if |a| == 0 {
      assert a + b == b;
    } else {
      assert (a + b)[0] == a[0];
      assert (a + b)[1..] == a[1..] + b;
      StripSpacesAppend(a[1..], b);
    }
  }

  lemma {:induction false} StripSpacesClean(s: string)
    requires forall i | 0 <= i < |s| :: !IsSpace(s[i])
    ensures StripSpaces(s) == s
  {
    if |s| > 0 {
      StripSpacesClean(s[1..]);
      assert [s[0]] + s[1..] == s;
    }
  }

  /** Normalisation works character by character: it distributes over concatenation. */
  lemma NormaliseAppend(a: string, b: string)
    ensures Normalise(a + b) == Normalise(a) + Normalise(b)
  {
    assert CommasToPoints(a + b) == CommasToPoints(a) + CommasToPoints(b);
    StripSpacesAppend(CommasToPoints(a), CommasToPoints(b));
  }

  /** Text without commas and whitespace passes through normalisation unchanged. */
  lemma NormaliseClean(s: string)
    requires forall i | 0 <= i < |s| :: s[i] != ',' && !IsSpace(s[i])
    ensures Normalise(s) == s
  {
    assert CommasToPoints(s) == s;
    StripSpacesClean(s);
  }

  /** Normalising twice is normalising once. */
  lemma NormaliseIdempotent(s: string)
    ensures Normalise(Normalise(s)) == Normalise(s)
  {
    NormaliseClean(Normalise(s));
  }

  /** A whitespace character anywhere in a cell has no effect on its normalised text. */
  lemma NormaliseIgnoresSpace(a: string, c: char, b: string)
    requires IsSpace(c)
    ensures Normalise(a + [c] + b) == Normalise(a + b)
  {
    NormaliseAppend(a + [c], b);
    NormaliseAppend(a, [c]);
    NormaliseAppend(a, b);
    assert CommasToPoints([c]) == [c];
    assert StripSpaces([c]) == StripSpaces([c][1..]);
    assert [c][1..] == "";
  }

  // ---- numeric coercion ----

  predicate AllDigits(s: string) {
    forall i | 0 <= i < |s| :: IsDigit(s[i])
  }

  function DigitValue(c: char): nat
    requires IsDigit(c)
  {
    c as int - '0' as int
  }

  /** The natural number a run of decimal digits denotes, most significant first. */
  function DigitsValue(s: string): nat
    requires AllDigits(s)
  {
    if |s| == 0 then 0 else 10 * DigitsValue(s[..|s| - 1]) + DigitValue(s[|s| - 1])
  }

  function Signed(negative: bool, n: nat): int {
    if negative then 0 - n else n
  }

  /**
   * The unsigned part of a number: digits with at most one decimal point and
   * at least one digit. The result is the digit run's value and the count of
   * digits after the point.
   */
  function ParseUnsigned(body: string): (r: Option<(nat, nat)>)
    ensures r.Some? ==> exists i | 0 <= i < |body| :: IsDigit(body[i])
  {
    match First(body, c => c == '.')
    case None =>
      if |body| > 0 && AllDigits(body) then
        assert IsDigit(body[0]);
        Some((DigitsValue(body), 0))
      else None
    case Some(k) =>
      var whole := body[..k];
      var frac := body[k + 1..];
      if |whole| + |frac| > 0 && AllDigits(whole) && AllDigits(frac) then
        assert exists i | 0 <= i < |body| :: IsDigit(body[i]) by {
          if |whole| > 0 { assert body[0] == whole[0]; } else { assert body[k + 1] == frac[0]; }
        }
        Some((DigitsValue(whole + frac), |frac|))
      else None
  }

  /**
   * `pd.to_numeric` of one string: an optional sign, then digits with at most
   * one decimal point and at least one digit; anything else fails (None).
   */
  function ParseDecimal(s: string): (r: Option<Decimal>)
    ensures r.Some? ==> exists i | 0 <= i < |s| :: IsDigit(s[i])
  {
    var negative := |s| > 0 && s[0] == '-';
    var start := if |s| > 0 && (s[0] == '-' || s[0] == '+') then 1 else 0;
    var body := s[start..];
    match ParseUnsigned(body)
    case Some((n, scale)) =>
      assert exists i | 0 <= i < |s| :: IsDigit(s[i]) by {
        var i :| 0 <= i < |body| && IsDigit(body[i]);
        assert s[start + i] == body[i];
      }
      Some(Decimal(Signed(negative, n), scale))
    case None => None
  }

  /** The amount an importer stores for one raw cell: normalised, then coerced; failure is Missing. */
  function Coerce(cell: string): (r: Amount)
    ensures r.Num? || r.Missing?
    ensures r.Num? ==> exists i | 0 <= i < |cell| :: IsDigit(cell[i])
  {
    var t := Normalise(cell);
    match ParseDecimal(t)
    case Some(d) =>
      assert exists i | 0 <= i < |cell| :: IsDigit(cell[i]) by {
        var i :| 0 <= i < |t| && IsDigit(t[i]);
        assert t[i] in t;
        assert t[i] in cell;
      }
      Num(d)
    case None => Missing
  }

  // ---- writing a decimal, the inverse of parsing ----

  function DigitChar(n: nat): (c: char)
    requires n < 10
    ensures IsDigit(c) && DigitValue(c) == n
  {
    ('0' as int + n) as char
  }

  /** The decimal digits of `n`, without leading zeros. */
  function Digits(n: nat): (r: string)
    ensures |r| > 0 && AllDigits(r)
    ensures DigitsValue(r) == n
  {
    if n < 10 then [DigitChar(n)]
    else
      var init := Digits(n / 10);
      var r := init + [DigitChar(n % 10)];
      assert r[..|r| - 1] == init;
      r
  }

  function Zeros(k: nat): (r: string)
    ensures |r| == k && AllDigits(r)
  {
    seq(k, _ => '0')
  }

  lemma {:induction false} ZerosValue(k: nat)
    ensures DigitsValue(Zeros(k)) == 0
  {
    if k > 0 {
      assert Zeros(k)[..k - 1] == Zeros(k - 1);
      ZerosValue(k - 1);
    }
  }

  /** Leading zeros do not change the value of a digit run. */
  lemma {:induction false} LeadingZerosValue(k: nat, s: string)
    requires AllDigits(s)
    ensures AllDigits(Zeros(k) + s)
    ensures DigitsValue(Zeros(k) + s) == DigitsValue(s)
  {
    var z := Zeros(k) + s;
    assert AllDigits(z) by {
      forall i | 0 <= i < |z| ensures IsDigit(z[i]) {
        if i < k { assert z[i] == Zeros(k)[i]; } else { assert z[i] == s[i - k]; }
      }
    }
    if |s| == 0 {
      assert z == Zeros(k);
      ZerosValue(k);
    } else {
      LeadingZerosValue(k, s[..|s| - 1]);
      assert z[..|z| - 1] == Zeros(k) + s[..|s| - 1];
      assert z[|z| - 1] == s[|s| - 1];
    }
  }

  /** The digits of `n`, left-padded with zeros to at least `width` characters. */
  function PadDigits(n: nat, width: nat): (r: string)
    ensures |r| >= width && |r| > 0 && AllDigits(r)
    ensures DigitsValue(r) == n
  {
    var d := Digits(n);
    if |d| < width then
      LeadingZerosValue(width - |d|, d);
      Zeros(width - |d|) + d
    else d
  }

  function Abs(n: int): nat {
    if n < 0 then -n else n
  }

  /** The digits of a magnitude with `scale` of them after a decimal point (none when `scale` is 0). */
  function RenderUnsigned(n: nat, scale: nat): string {
    var digits := PadDigits(n, scale + 1);
    if scale == 0 then digits
    else digits[..|digits| - scale] + "." + digits[|digits| - scale..]
  }

  /** A decimal written the way `ParseDecimal` reads it: "-12.30" for Decimal(-1230, 2). */
  function Render(d: Decimal): string {
    (if d.units < 0 then "-" else "") + RenderUnsigned(Abs(d.units), d.scale)
  }

  lemma FirstPointAt(body: string, k: nat)
    requires k < |body| && body[k] == '.'
    requires forall i | 0 <= i < k :: body[i] != '.'
    ensures First(body, c => c == '.') == Some(k)
  {
    var p := (c: char) => c == '.';
    assert p(body[k]);
  }

  lemma NoPoint(body: string)
    requires AllDigits(body)
    ensures First(body, c => c == '.') == None
  {
    var p := (c: char) => c == '.';
    forall j | 0 <= j < |body| ensures !p(body[j]) {
      assert IsDigit(body[j]);
    }
  }

  /** A digit run with no point reads as its value with scale 0. */
  lemma ParsePlain(digits: string)
    requires |digits| > 0 && AllDigits(digits)
    ensures ParseUnsigned(digits) == Some((DigitsValue(digits), 0))
  {
    NoPoint(digits);
  }

  /** Digits, a point, digits: the value of all the digits, scaled by how many follow the point. */
  lemma ParsePointed(whole: string, frac: string)
    requires |whole| > 0 && AllDigits(whole) && AllDigits(frac)
    ensures ParseUnsigned(whole + "." + frac) == Some((DigitsValue(whole + frac), |frac|))
  {
    var body := whole + "." + frac;
    var k := |whole|;
    forall i | 0 <= i < k ensures body[i] != '.' {
      assert body[i] == whole[i];
    }
    FirstPointAt(body, k);
    assert body[..k] == whole;
    assert body[k + 1..] == frac;
  }

  lemma ParseRenderWhole(n: nat)
    ensures ParseUnsigned(RenderUnsigned(n, 0)) == Some((n, 0))
  {
    var digits := PadDigits(n, 1);
    assert RenderUnsigned(n, 0) == digits;
    ParsePlain(digits);
  }

  lemma ParseRenderFraction(n: nat, scale: nat)
    requires scale > 0
    ensures ParseUnsigned(RenderUnsigned(n, scale)) == Some((n, scale))
  {
    var digits := PadDigits(n, scale + 1);
    var k := |digits| - scale;
    SplitDigits(digits, k);
    ParsePointed(digits[..k], digits[k..]);
  }

  /** Cutting a digit run anywhere gives two digit runs that join back into it. */
  lemma SplitDigits(digits: string, k: nat)
    requires AllDigits(digits) && k <= |digits|
    ensures AllDigits(digits[..k]) && AllDigits(digits[k..])
    ensures digits[..k] + digits[k..] == digits
  {
    var whole, frac := digits[..k], digits[k..];
    forall i | 0 <= i < |whole| ensures IsDigit(whole[i]) { assert whole[i] == digits[i]; }
    forall i | 0 <= i < |frac| ensures IsDigit(frac[i]) { assert frac[i] == digits[k + i]; }
  }

  lemma ParseRenderUnsigned(n: nat, scale: nat)
    ensures ParseUnsigned(RenderUnsigned(n, scale)) == Some((n, scale))
  {
    if scale == 0 {
      ParseRenderWhole(n);
    } else {
      ParseRenderFraction(n, scale);
    }
  }

  lemma RenderUnsignedStartsWithDigit(n: nat, scale: nat)
    ensures |RenderUnsigned(n, scale)| > 0 && IsDigit(RenderUnsigned(n, scale)[0])
  {
    var digits := PadDigits(n, scale + 1);
    assert RenderUnsigned(n, scale)[0] == digits[0];
  }

  /** A sign in front of an unsigned body that starts with a digit is read as that sign. */
  lemma ParseSigned(negative: bool, body: string)
    requires |body| > 0 && IsDigit(body[0])
    ensures ParseDecimal((if negative then "-" else "") + body)
         == match ParseUnsigned(body)
            case Some((n, scale)) => Some(Decimal(Signed(negative, n), scale))
            case None => None
  {
    var s := (if negative then "-" else "") + body;
    if negative {
      assert s[0] == '-' && s[1..] == body;
    } else {
      assert s == body;
    }
  }

  /** Reading back a written decimal gives the decimal: parsing inverts rendering. */
  lemma ParseRender(d: Decimal)
    ensures ParseDecimal(Render(d)) == Some(d)
  {
    var core := RenderUnsigned(Abs(d.units), d.scale);
    RenderUnsignedStartsWithDigit(Abs(d.units), d.scale);
    ParseSigned(d.units < 0, core);
    ParseRenderUnsigned(Abs(d.units), d.scale);
  }

  /** A rendered unsigned decimal is made of digits and at most one '.'. */
  lemma RenderUnsignedChars(n: nat, scale: nat)
    ensures forall i | 0 <= i < |RenderUnsigned(n, scale)| ::
      IsDigit(RenderUnsigned(n, scale)[i]) || RenderUnsigned(n, scale)[i] == '.'
  {
    var digits := PadDigits(n, scale + 1);
    var body := RenderUnsigned(n, scale);
    if scale > 0 {
      var k := |digits| - scale;
      forall i | 0 <= i < |body| ensures IsDigit(body[i]) || body[i] == '.' {
        if i < k { assert body[i] == digits[i]; }
        else if i > k { assert body[i] == digits[i - 1]; }
      }
    }
  }

  /** A rendered decimal holds no comma and no whitespace. */
  lemma RenderChars(d: Decimal)
    ensures forall i | 0 <= i < |Render(d)| :: Render(d)[i] != ',' && !IsSpace(Render(d)[i])
  {
    var body := RenderUnsigned(Abs(d.units), d.scale);
    var s := Render(d);
    RenderUnsignedChars(Abs(d.units), d.scale);
    var off := if d.units < 0 then 1 else 0;
    forall i | 0 <= i < |s| ensures s[i] != ',' && !IsSpace(s[i]) {
      if i >= off { assert s[i] == body[i - off]; }
    }
  }

  /** Commas and whitespace are neutral: a rendered decimal coerces back to itself. */
  lemma CoerceRender(d: Decimal)
    ensures Coerce(Render(d)) == Num(d)
  {
    var s := Render(d);
    RenderChars(d);
    NormaliseClean(s);
    ParseRender(d);
  }

  /** A decimal written with a decimal comma, as French bank exports do, coerces to the same number. */
  lemma CoerceDecimalComma(d: Decimal)
    ensures Coerce(PointsToCommas(Render(d))) == Num(d)
  {
    CoerceRender(d);
    CommasAfterPoints(Render(d));
  }

  /** Writing points as commas is undone by normalisation's commas-to-points step. */
  lemma CommasAfterPoints(s: string)
    ensures CommasToPoints(PointsToCommas(s)) == CommasToPoints(s)
  {
    var f := PointsToCommas(s);
    forall i | 0 <= i < |s| ensures CommasToPoints(f)[i] == CommasToPoints(s)[i] {
    }
  }

  // ---- the grammar numeric coercion accepts ----

  /** Digits with at most one '.' and at least one digit: "12", "1.5", ".5", "5." but not "." or "". */
  predicate UnsignedText(body: string) {
    || (|body| > 0 && AllDigits(body))
    || (|body| > 1 && exists k | 0 <= k < |body| :: body[k] == '.' && AllDigits(body[..k]) && AllDigits(body[k + 1..]))
  }

  /** An optional leading '-' or '+', then an unsigned number. */
  predicate NumberText(s: string) {
    if |s| > 0 && (s[0] == '-' || s[0] == '+') then UnsignedText(s[1..]) else UnsignedText(s)
  }

  /** Digits either side of a point contain no other point, so the point found first is that one. */
  lemma PointIsFirst(body: string, k: nat)
    requires k < |body| && body[k] == '.' && AllDigits(body[..k])
    ensures First(body, c => c == '.') == Some(k)
  {
    forall i | 0 <= i < k ensures body[i] != '.' {
      assert IsDigit(body[..k][i]);
    }
    FirstPointAt(body, k);
  }

  /** The unsigned parser accepts exactly the unsigned grammar. */
  lemma ParseUnsignedAccepts(body: string)
    ensures ParseUnsigned(body).Some? <==> UnsignedText(body)
  {
    match First(body, c => c == '.')
    case None =>
    case Some(k) =>
      assert !AllDigits(body) by { assert !IsDigit(body[k]); }
  }

  /** `pd.to_numeric` of one string succeeds exactly on the number grammar. */
  lemma ParseDecimalAccepts(s: string)
    ensures ParseDecimal(s).Some? <==> NumberText(s)
  {
    var start := if |s| > 0 && (s[0] == '-' || s[0] == '+') then 1 else 0;
    ParseUnsignedAccepts(s[start..]);
  }

  /** A cell is coerced to a number exactly when its normalised text fits the number grammar. */
  lemma CoerceAccepts(cell: string)
    ensures Coerce(cell).Num? <==> NumberText(Normalise(cell))
  {
    ParseDecimalAccepts(Normalise(cell));
  }

  /** A body with two points is rejected: after the first point only digits may follow. */
  lemma TwoPointsRejected(body: string, i: nat, j: nat)
    requires i < j < |body| && body[i] == '.' && body[j] == '.'
    ensures ParseUnsigned(body).None?
  {
    match First(body, c => c == '.')
    case None =>
      assert body[i] == '.';
    case Some(k) =>
      assert k <= i;
      assert !IsDigit(body[k + 1..][j - k - 1]);
  }

  /**
   * A cell whose normalised text holds two points is Missing: both a
   * thousands separator written as '.' next to a decimal comma and one
   * written as ',' next to a decimal point.
   */
  lemma TwoPointsMissing(cell: string, i: nat, j: nat)
    requires i < j < |Normalise(cell)| && Normalise(cell)[i] == '.' && Normalise(cell)[j] == '.'
    ensures Coerce(cell) == Missing
  {
    var t := Normalise(cell);
    var start := if |t| > 0 && (t[0] == '-' || t[0] == '+') then 1 else 0;
    assert start <= i;
    TwoPointsRejected(t[start..], i - start, j - start);
  }

  /** A single separator normalises to a point. */
  lemma NormaliseSeparator(c: char)
    requires c == '.' || c == ','
    ensures Normalise([c]) == "."
  {
    assert CommasToPoints([c]) == ".";
    StripSpacesClean(".");
  }

  /** Digit groups joined by a point and a comma, in either order, normalise to a text with two points. */
  lemma NormaliseGrouped(a: string, p: char, b: string, q: char, c: string)
    requires AllDigits(a) && AllDigits(b) && AllDigits(c)
    requires (p == '.' || p == ',') && (q == '.' || q == ',')
    ensures Normalise(a + [p] + b + [q] + c) == a + "." + b + "." + c
  {
    forall s: string | AllDigits(s) ensures Normalise(s) == s {
      NormaliseClean(s);
    }
    NormaliseSeparator(p);
    NormaliseSeparator(q);
    NormaliseAppend(a + [p] + b + [q], c);
    NormaliseAppend(a + [p] + b, [q]);
    NormaliseAppend(a + [p], b);
    NormaliseAppend(a, [p]);
  }

  /**
   * A grouped amount is Missing, whichever of '.' and ',' marks the
   * thousands: "1.234,56" and "1,234.56" both normalise to two points.
   */
  lemma GroupedThousandsMissing(a: string, p: char, b: string, q: char, c: string)
    requires AllDigits(a) && AllDigits(b) && AllDigits(c)
    requires (p == '.' || p == ',') && (q == '.' || q == ',')
    ensures Coerce(a + [p] + b + [q] + c) == Missing
  {
    NormaliseGrouped(a, p, b, q, c);
    var t := a + "." + b + "." + c;
    assert t[|a|] == '.' && t[|a| + 1 + |b|] == '.';
    TwoPointsMissing(a + [p] + b + [q] + c, |a|, |a| + 1 + |b|);
  }

  /** The two concrete groupings. */
  lemma GroupedExamples()
    ensures Coerce("1.234,56") == Missing
    ensures Coerce("1,234.56") == Missing
  {
    assert AllDigits("1") && AllDigits("234") && AllDigits("56");
    GroupedThousandsMissing("1", '.', "234", ',', "56");
    assert "1" + ['.'] + "234" + [','] + "56" == "1.234,56";
    GroupedThousandsMissing("1", ',', "234", '.', "56");
    assert "1" + [','] + "234" + ['.'] + "56" == "1,234.56";
  }

  /** A plus sign is accepted and dropped. */
  lemma PlusSignValue()
    ensures ParseDecimal("+5") == Some(Decimal(5, 0))
  {
    assert "+5"[1..] == "5";
    ParsePlain("5");
  }

  /** A bare fraction is accepted. */
  lemma BareFractionValue()
    ensures ParseDecimal(".5") == Some(Decimal(5, 1))
  {
    var body := ".5";
    FirstPointAt(body, 0);
    assert body[..0] + body[1..] == "5";
    assert DigitsValue("5") == 5;
  }

  /** A trailing point is accepted. */
  lemma TrailingPointValue()
    ensures ParseDecimal("5.") == Some(Decimal(5, 0))
  {
    var body := "5.";
    FirstPointAt(body, 1);
    assert body[..1] + body[2..] == "5";
    assert DigitsValue("5") == 5;
  }

  /** Leading zeros are accepted and do not change the value. */
  lemma LeadingZerosAccepted()
    ensures ParseDecimal("007") == Some(Decimal(7, 0))
  {
    ParsePlain("007");
    assert DigitsValue("007") == 10 * DigitsValue("00") + 7;
    assert DigitsValue("00") == 10 * DigitsValue("0");
  }

  /** A lone point, the empty text and a doubled sign are not numbers. */
  lemma NotNumbers()
    ensures ParseDecimal(".") == None
    ensures ParseDecimal("") == None
    ensures ParseDecimal("+-5") == None
  {
    FirstPointAt(".", 0);
    assert !IsDigit('-');
  }
}

=== FILE: categorize.dfy ===
/**
 * The categorisation window's rules: which rows it visits, which category
 * it pre-fills, and what one "Next" press writes.
 */
module Categorize {
  import opened Wrappers
  import opened Scan
  import opened Text
  import opened Ledger

  /** The window's filter: category "NC" or null. */
  predicate IsUncategorised(op: Operation) {
    op.category == Some(Uncategorised) || op.category.None?
  }

  /** Row labels of the uncategorised rows, in ledger order (labels are positions: every concat renumbers). */
  function UncategorisedRows(ops: seq<Operation>): (r: seq<nat>)
    ensures forall k | 0 <= k < |r| :: r[k] < |ops| && IsUncategorised(ops[r[k]])
    ensures forall i | 0 <= i < |ops| && IsUncategorised(ops[i]) :: i in r
    ensures forall a, b | 0 <= a < b < |r| :: r[a] < r[b]
  {
    if |ops| == 0 then []
    else
      var init := ops[..|ops| - 1];
      var earlier := UncategorisedRows(init);
      assert forall k | 0 <= k < |earlier| :: ops[earlier[k]] == init[earlier[k]];
      assert forall i | 0 <= i < |init| :: ops[i] == init[i];
      if IsUncategorised(ops[|ops| - 1]) then earlier + [|ops| - 1] else earlier
  }

  /** A keyword rule: an operation whose upper-cased name contains `keyword` is suggested `category`. */
  datatype Rule = Rule(keyword: string, category: string)

  /** The window's built-in rules, in the order the dict literal lists them. */
  const DefaultRules: seq<Rule> := [
    Rule("SALAIRE", "Revenus"),
    Rule("BLABLACAR", "Transport"),
    Rule("AUTOROUTE", "Transport"),
    Rule("VIAL", "Alimentation"),
    Rule("ALIM", "Alimentation"),
    Rule("FREE MOBILE", "Maison"),
    Rule("SANTE", "Santé"),
    Rule("RESTO", "Sortie"),
    Rule("ESL", "Maison")
  ]

  predicate Matches(rule: Rule, name: string) {
    Contains(Upper(name), rule.keyword)
  }

  /**
   * The pre-filled category: that of the first rule, in order, whose keyword
   * occurs in the upper-cased name; "NC" when none does.
   */
  function Suggest(rules: seq<Rule>, name: string): (r: string)
    ensures (forall k | 0 <= k < |rules| :: !Matches(rules[k], name)) ==> r == Uncategorised
    ensures (exists k | 0 <= k < |rules| :: Matches(rules[k], name)) ==>
      exists k | 0 <= k < |rules| ::
        && Matches(rules[k], name) && r == rules[k].category
        && forall j | 0 <= j < k :: !Matches(rules[j], name)
    ensures r == Uncategorised || exists k | 0 <= k < |rules| :: r == rules[k].category
  {
    match First(rules, (rule: Rule) => Matches(rule, name))
    case Some(k) => rules[k].category
    case None =>
      assert forall k | 0 <= k < |rules| :: !Matches(rules[k], name) by {
        forall k | 0 <= k < |rules| ensures !Matches(rules[k], name) {
          assert !((rule: Rule) => Matches(rule, name))(rules[k]);
        }
      }
      Uncategorised
  }

  /** A name holding two keywords gets the category of the rule listed first. */
  lemma EarlierRuleWins(name: string)
    requires Matches(DefaultRules[0], name)
    ensures Suggest(DefaultRules, name) == "Revenus"
  {
  }

  /** Rules match regardless of the letter case of the name: lower-casing it first changes no suggestion. */
  lemma SuggestIgnoresCase(rules: seq<Rule>, name: string)
    ensures Suggest(rules, Lower(name)) == Suggest(rules, name)
  {
    assert Upper(Lower(name)) == Upper(name);
  }

  /** The window's state: the rows it visits, in order, and the position of the one showing. */
  datatype Session = Session(pending: seq<nat>, cursor: nat)

  /** The window is showing a row of `ops`. */
  predicate Showing(ops: seq<Operation>, s: Session) {
    && s.cursor < |s.pending|
    && forall k | 0 <= k < |s.pending| :: s.pending[k] < |ops|
  }

  /**
   * `categorize_operations` opening: nothing to do when no row is
   * uncategorised, otherwise a window showing the first such row that will
   * visit every uncategorised row, each once, in ledger order.
   */
  function Open(ops: seq<Operation>): (r: Option<Session>)
    ensures r.None? <==> forall i | 0 <= i < |ops| :: !IsUncategorised(ops[i])
    ensures r.Some? ==> Showing(ops, r.value) && r.value.cursor == 0
    ensures r.Some? ==> forall k | 0 <= k < |r.value.pending| :: IsUncategorised(ops[r.value.pending[k]])
    ensures r.Some? ==> forall i | 0 <= i < |ops| && IsUncategorised(ops[i]) :: i in r.value.pending
    ensures r.Some? ==> forall a, b | 0 <= a < b < |r.value.pending| :: r.value.pending[a] < r.value.pending[b]
    ensures r.Some? ==> r.value.pending == UncategorisedRows(ops)
  {
    var pending := UncategorisedRows(ops);
    if |pending| == 0 then None
    else
      assert IsUncategorised(ops[pending[0]]);
      Some(Session(pending, 0))
  }

  /** `show_operation`: the row showing and the category the window pre-selects for it. */
  function Show(ops: seq<Operation>, s: Session, rules: seq<Rule>): (r: (Operation, string))
    requires Showing(ops, s)
    ensures r.0 == ops[s.pending[s.cursor]]
    ensures r.1 == Suggest(rules, r.0.name)
    ensures r.1 == Uncategorised || exists k | 0 <= k < |rules| :: r.1 == rules[k].category && Matches(rules[k], r.0.name)
  {
    var op := ops[s.pending[s.cursor]];
    (op, Suggest(rules, op.name))
  }

  datatype Step = Step(operations: seq<Operation>, session: Session, finished: bool)

  /**
   * `save_and_next`: the showing row's category becomes `chosen`, nothing
   * else in the table changes, the cursor advances, and the window closes
   * after the last row.
   */
  function SaveAndNext(ops: seq<Operation>, s: Session, chosen: string): (r: Step)
    requires Showing(ops, s)
    ensures |r.operations| == |ops|
    ensures r.operations[s.pending[s.cursor]] == ops[s.pending[s.cursor]].(category := Some(chosen))
    ensures forall i | 0 <= i < |ops| && i != s.pending[s.cursor] :: r.operations[i] == ops[i]
    ensures r.session.pending == s.pending && r.session.cursor == s.cursor + 1
    ensures r.finished <==> s.cursor + 1 == |s.pending|
    ensures !r.finished ==> Showing(r.operations, r.session)
  {
    var row := s.pending[s.cursor];
    var next := s.(cursor := s.cursor + 1);
    Step(ops[row := ops[row].(category := Some(chosen))], next, next.cursor == |s.pending|)
  }

  /**
   * After `visited` presses of "Next": the first `visited` rows of `pending`
   * carry the first `visited` choices and every other row of `out` is as in
   * `ops`.
   */
  predicate Answered(ops: seq<Operation>, pending: seq<nat>, choices: seq<string>, out: seq<Operation>, visited: nat) {
    && visited <= |pending| && visited <= |choices|
    && |out| == |ops|
    && (forall k | 0 <= k < visited :: pending[k] < |ops| && out[pending[k]] == ops[pending[k]].(category := Some(choices[k])))
    && (forall i | 0 <= i < |ops| && i !in pending[..visited] :: out[i] == ops[i])
  }

  /** One more press of "Next" answers one more row and touches no other. */
  lemma {:induction false} AnswerOne(ops: seq<Operation>, pending: seq<nat>, choices: seq<string>, out: seq<Operation>, visited: nat)
    requires forall k | 0 <= k < |pending| :: pending[k] < |ops|
    requires forall a, b | 0 <= a < b < |pending| :: pending[a] < pending[b]
    requires Answered(ops, pending, choices, out, visited)
    requires visited < |choices| && visited < |pending|
    ensures Showing(out, Session(pending, visited))
    ensures Answered(ops, pending, choices, SaveAndNext(out, Session(pending, visited), choices[visited]).operations, visited + 1)
  {
    var out' := SaveAndNext(out, Session(pending, visited), choices[visited]).operations;
    var row := pending[visited];
    assert pending[..visited + 1] == pending[..visited] + [row];
    forall k | 0 <= k < visited + 1
      ensures out'[pending[k]] == ops[pending[k]].(category := Some(choices[k]))
    {
      if k < visited {
        assert pending[k] < row;
      } else {
        assert row !in pending[..visited] by {
          forall j | 0 <= j < visited ensures pending[..visited][j] != row { assert pending[j] < row; }
        }
      }
    }
  }

  /**
   * A run of the window in which the user presses "Next" once per entry of
   * `choices` (or until the rows run out): the k-th uncategorised row gets
   * the k-th choice, every other row is unchanged, none is added, removed or
   * reordered. Closing early leaves the rest for a later run.
   */
  method RunSession(ops: seq<Operation>, choices: seq<string>) returns (out: seq<Operation>, visited: nat)
    ensures visited == if |choices| < |UncategorisedRows(ops)| then |choices| else |UncategorisedRows(ops)|
    ensures |out| == |ops|
    ensures forall k | 0 <= k < visited ::
      out[UncategorisedRows(ops)[k]] == ops[UncategorisedRows(ops)[k]].(category := Some(choices[k]))
    ensures forall i | 0 <= i < |ops| && i !in UncategorisedRows(ops)[..visited] :: out[i] == ops[i]
  {
    var pending := UncategorisedRows(ops);
    out := ops;
    visited := 0;
    while visited < |choices| && visited < |pending|
      invariant Answered(ops, pending, choices, out, visited)
    {
      AnswerOne(ops, pending, choices, out, visited);
      var step := SaveAndNext(out, Session(pending, visited), choices[visited]);
      out := step.operations;
      visited := visited + 1;
    }
  }

  /**
   * Answering every row with a real category clears the backlog: no row is
   * uncategorised afterwards.
   */
  method ClearBacklog(ops: seq<Operation>, choices: seq<string>) returns (out: seq<Operation>)
    requires |choices| >= |UncategorisedRows(ops)|
    requires forall k | 0 <= k < |choices| :: choices[k] != Uncategorised
    ensures |out| == |ops|
    ensures forall i | 0 <= i < |out| :: !IsUncategorised(out[i])
    ensures forall i | 0 <= i < |ops| && !IsUncategorised(ops[i]) :: out[i] == ops[i]
  {
    var visited;
    out, visited := RunSession(ops, choices);
    var pending := UncategorisedRows(ops);
    forall i | 0 <= i < |out| ensures !IsUncategorised(out[i]) {
      if IsUncategorised(ops[i]) {
        var k :| 0 <= k < |pending| && pending[k] == i;
        assert out[pending[k]] == ops[pending[k]].(category := Some(choices[k]));
      } else {
        assert i !in pending[..visited];
      }
    }
  }
}

=== FILE: dialects.dfy ===
/**
 * The registry of bank export layouts (`DICTBANK`) and the two lookups
 * driven by it: which dialect a loaded table is in, and at which row a raw
 * file's header starts.
 */
module Dialects {
  import opened Wrappers
  import opened Scan
  import opened Text

  datatype Bank = BNP | BoursoBank

  /** The column headers one bank's export uses for the date, the label and the amount. */
  datatype Dialect = Dialect(bank: Bank, date: string, name: string, amount: string)

  /** `DICTBANK`, in its registration order: BNP first, then BoursoBank. */
  const Registry: seq<Dialect> := [
    Dialect(BNP, "Date operation", "Libelle operation", "Montant operation en euro"),
    Dialect(BoursoBank, "dateOp", "label", "amount")
  ]

  /** How many leading rows of a spreadsheet the header locator previews. */
  const PreviewRows: nat := 10

  /** The dialect a table is in: the first registered one whose date column the table has. */
  function DetectDialect(registry: seq<Dialect>, columns: seq<string>): (r: Option<nat>)
    ensures r.Some? ==> r.value < |registry| && registry[r.value].date in columns
    ensures r.Some? ==> forall j | 0 <= j < r.value :: registry[j].date !in columns
    ensures r.None? <==> forall j | 0 <= j < |registry| :: registry[j].date !in columns
  {
    First(registry, (d: Dialect) => d.date in columns)
  }

  /** Text holds some registered dialect's date header as a substring. */
  predicate MentionsDateHeader(registry: seq<Dialect>, text: string) {
    exists k | 0 <= k < |registry| :: Contains(text, registry[k].date)
  }

  /** Some cell of a row holds some registered dialect's date header. */
  predicate RowMentionsDateHeader(registry: seq<Dialect>, row: seq<string>) {
    exists c | 0 <= c < |row| :: MentionsDateHeader(registry, row[c])
  }

  /**
   * `_detect_header_row` on a spreadsheet: the first of at most the first
   * ten rows (cells as `str` renders them) holding a date header, or 0.
   */
  function HeaderRowOfSheet(registry: seq<Dialect>, sheet: seq<seq<string>>): (r: nat)
    ensures r < PreviewRows
    ensures r == 0 || r < |sheet|
    ensures (exists i | 0 <= i < |sheet| && i < PreviewRows :: RowMentionsDateHeader(registry, sheet[i])) ==>
      && RowMentionsDateHeader(registry, sheet[r])
      && forall j | 0 <= j < r :: !RowMentionsDateHeader(registry, sheet[j])
    ensures (forall i | 0 <= i < |sheet| && i < PreviewRows :: !RowMentionsDateHeader(registry, sheet[i])) ==> r == 0
  {
    var preview := if |sheet| <= PreviewRows then sheet else sheet[..PreviewRows];
    match First(preview, row => RowMentionsDateHeader(registry, row))
    case Some(i) => i
    case None => 0
  }

  /**
   * `_detect_header_row` on a delimited-text file: the first line holding a
   * date header, or 0. `delivered` is how many lines the text reader hands
   * out before its UTF-8 decoder raises, if it raises at all; the error is
   * swallowed, so only those lines are ever looked at. The reader decodes
   * whole blocks, so this count can be well below the index of the line
   * holding the bad byte (0 when that byte sits in the first block).
   */
  function HeaderRowOfLines(registry: seq<Dialect>, lines: seq<string>, delivered: Option<nat>): (r: nat)
    ensures r == 0 || r < |lines|
    ensures delivered.Some? ==> r == 0 || r < delivered.value
    ensures forall j | 0 <= j < r :: !MentionsDateHeader(registry, lines[j])
    ensures r > 0 ==> MentionsDateHeader(registry, lines[r])
    ensures (forall j | 0 <= j < |lines| :: !MentionsDateHeader(registry, lines[j])) ==> r == 0
    ensures (exists j | 0 <= j < |lines| && (delivered.None? || j < delivered.value) ::
               MentionsDateHeader(registry, lines[j])) ==>
      MentionsDateHeader(registry, lines[r])
  {
    var readable := match delivered
      case Some(k) => if k < |lines| then lines[..k] else lines
      case None => lines;
    match First(readable, line => MentionsDateHeader(registry, line))
    case Some(i) => i
    case None => 0
  }

  /** A table carrying both banks' date columns is read as BNP, the first registered. */
  lemma BnpTakesPriority(columns: seq<string>)
    requires "Date operation" in columns && "dateOp" in columns
    ensures DetectDialect(Registry, columns) == Some(0)
  {
  }

  /** A table with BoursoBank's date column and not BNP's is read as BoursoBank. */
  lemma BoursoBankWhenNoBnp(columns: seq<string>)
    requires "Date operation" !in columns && "dateOp" in columns
    ensures DetectDialect(Registry, columns) == Some(1)
  {
  }
}

=== FILE: import.dfy ===
/**
 * `import_operations_from_excel` as a pure function: from the loaded table,
 * the collaborator's answer and an optional manual column mapping to the
 * manager's next state, or to the error raised together with whatever the
 * call had already changed when it raised.
 */
module Import {
  import opened Wrappers
  import opened Scan
  import opened Text
  import opened Amounts
  import opened Ledger
  import opened Dialects

  /** A table as pandas loads it: the header row's names, then the data rows as cell texts. */
  datatype Frame = Frame(columns: seq<string>, rows: seq<seq<string>>)

  datatype FileKind = Spreadsheet | DelimitedText | OtherFile

  /** The three column names a user picks when no dialect matched. */
  datatype Mapping = Mapping(date: string, name: string, amount: string)

  /**
   * How the unrecognised-account dialog closed: an existing account picked,
   * a new account named, Cancel pressed, or the window closed without a
   * recorded choice.
   */
  datatype Answer = Associated(name: string) | Created(name: string) | Cancelled | Closed

  datatype ImportError =
    | UnsupportedFileType
    | MappingRequired
    | NoDataLoaded
    | ImportCancelled
    | SelectionFailed
    | NotASpreadsheet
    | MissingColumn(column: string)
    | MissingCell
    | NoSuchAccount(name: string)
    | BadDate(cell: string)

  /** What an import leaves behind: the new state, or the error raised and the state at that moment. */
  datatype Outcome = Imported(state: Manager) | Raised(error: ImportError, state: Manager)

  /** The bank account number a statement carries and the balance snapshots it reports. */
  datatype Statement = Statement(number: string, snapshots: seq<Snapshot>)

  /** Which reader a lower-cased extension selects: `xls*` a spreadsheet, `csv` delimited text. */
  function ReaderFor(ext: string): FileKind {
    if StartsWith(ext, "xls") then Spreadsheet
    else if ext == "csv" then DelimitedText
    else OtherFile
  }

  /** Which reader the importer uses, decided by the lower-cased text after the last '.'. */
  function KindOf(path: string): FileKind {
    ReaderFor(Lower(AfterLastDot(path)))
  }

  /** Only the extension matters, whatever the stem holds (dots included). */
  lemma KindOfSuffix(stem: string, ext: string)
    requires '.' !in ext
    ensures KindOf(stem + "." + ext) == ReaderFor(Lower(ext))
  {
    AfterLastDotOfSuffix(stem, ext);
  }

  /** The readers the usual extensions select, after lower-casing. */
  lemma ReaderForExamples()
    ensures ReaderFor(Lower("XLSX")) == Spreadsheet
    ensures ReaderFor(Lower("xls")) == Spreadsheet
    ensures ReaderFor(Lower("Csv")) == DelimitedText
    ensures ReaderFor(Lower("txt")) == OtherFile
    ensures ReaderFor(Lower("xlcsv")) == OtherFile
  {
    assert Lower("XLSX") == "xlsx" by {
      assert LowerChar('X') == 'x' && LowerChar('L') == 'l' && LowerChar('S') == 's';
    }
    assert Lower("xls") == "xls";
    assert Lower("Csv") == "csv" by {
      assert LowerChar('C') == 'c';
    }
    assert !StartsWith("csv", "xls") by { assert "csv"[0] != "xls"[0]; }
    assert Lower("txt") == "txt";
    assert Lower("xlcsv") == "xlcsv";
    assert !StartsWith("xlcsv", "xls") by { assert "xlcsv"[2] != "xls"[2]; }
    assert "xlcsv" != "csv" by { assert |"xlcsv"| != |"csv"|; }
  }

  /** The kind depends only on the extension, in any letter case; anything but xls* and csv is refused. */
  lemma KindOfExtension(stem: string)
    ensures KindOf(stem + "." + "XLSX") == Spreadsheet
    ensures KindOf(stem + "." + "xls") == Spreadsheet
    ensures KindOf(stem + "." + "Csv") == DelimitedText
    ensures KindOf(stem + "." + "txt") == OtherFile
    ensures KindOf(stem + "." + "xlcsv") == OtherFile
  {
    ReaderForExamples();
    KindOfSuffix(stem, "XLSX");
    KindOfSuffix(stem, "xls");
    KindOfSuffix(stem, "Csv");
    KindOfSuffix(stem, "txt");
    KindOfSuffix(stem, "xlcsv");
  }

  /** Cell `k` of a row, or "" where a ragged row is too short. */
  /** Any extension whose lower-cased form starts with "xls" selects the spreadsheet reader. */
  lemma XlsFamilyIsSpreadsheet(stem: string, rest: string)
    requires '.' !in rest
    ensures KindOf(stem + "." + "xls" + rest) == Spreadsheet
    ensures KindOf(stem + "." + "XLS" + rest) == Spreadsheet
  {
    XlsFamilyCase(stem, "xls", rest);
    XlsFamilyCase(stem, "XLS", rest);
  }

  lemma XlsFamilyCase(stem: string, xls: string, rest: string)
    requires xls == "xls" || xls == "XLS"
    requires '.' !in rest
    ensures KindOf(stem + "." + xls + rest) == Spreadsheet
  {
    XlsPrefixLowers(xls, rest);
    KindOfSuffix(stem, xls + rest);
    assert stem + "." + xls + rest == stem + "." + (xls + rest);
  }

  /** A dot-free extension beginning with "xls" in either case lower-cases to one beginning with "xls". */
  lemma XlsPrefixLowers(xls: string, rest: string)
    requires xls == "xls" || xls == "XLS"
    requires '.' !in rest
    ensures '.' !in xls + rest
    ensures StartsWith(Lower(xls + rest), "xls")
  {
    LowerAppend(xls, rest);
    assert Lower(xls) == "xls" by {
      assert LowerChar('X') == 'x' && LowerChar('L') == 'l' && LowerChar('S') == 's';
    }
  }

  /** An extension whose lower-cased form neither starts with "xls" nor is "csv" is refused. */
  lemma OtherExtensionUnsupported(stem: string, ext: string)
    requires '.' !in ext
    requires !StartsWith(Lower(ext), "xls") && Lower(ext) != "csv"
    ensures KindOf(stem + "." + ext) == OtherFile
  {
    KindOfSuffix(stem, ext);
  }

  /** An extension that lower-cases to "csv" selects the delimited-text reader. */
  lemma CsvIsDelimited(stem: string, ext: string)
    requires '.' !in ext && Lower(ext) == "csv"
    ensures KindOf(stem + "." + ext) == DelimitedText
  {
    KindOfSuffix(stem, ext);
    assert !StartsWith("csv", "xls") by { assert "csv"[0] != "xls"[0]; }
  }

  function CellAt(row: seq<string>, k: nat): string {
    if k < |row| then row[k] else ""
  }

  /** `df[column]`: that column's cells top to bottom, or None where pandas raises KeyError. */
  function Column(f: Frame, column: string): (r: Option<seq<string>>)
    ensures r.Some? <==> column in f.columns
    ensures r.Some? ==> |r.value| == |f.rows|
    ensures r.Some? ==> forall i | 0 <= i < |f.rows| :: r.value[i] == CellAt(f.rows[i], ColumnIndex(f, column).value)
  {
    match ColumnIndex(f, column)
    case Some(k) => Some(seq(|f.rows|, i requires 0 <= i < |f.rows| => CellAt(f.rows[i], k)))
    case None => None
  }

  /** Where `column` sits among the headers: the first position holding it, None when none does. */
  function ColumnIndex(f: Frame, column: string): (r: Option<nat>)
    ensures r.Some? ==> r.value < |f.columns| && f.columns[r.value] == column
    ensures r.Some? ==> forall j | 0 <= j < r.value :: f.columns[j] != column
    ensures r.None? <==> column !in f.columns
  {
    var r := First(f.columns, c => c == column);
    assert r.None? ==> column !in f.columns by {
      if r.None? {
        forall j | 0 <= j < |f.columns| ensures f.columns[j] != column {
          assert !(c => c == column)(f.columns[j]);
        }
      }
    }
    r
  }

  /**
   * The account number and balance snapshots of a statement in dialect `d`.
   * BoursoBank carries them in the `accountNum` (first row) and
   * `accountbalance` columns, one snapshot per row; BNP in cells 2 and 5 of
   * the spreadsheet's first line, one snapshot dated by the last row.
   */
  function ExtractStatement(d: Dialect, kind: FileKind, f: Frame, firstRow: seq<string>): (r: Result<Statement, ImportError>)
    requires d.date in f.columns
    ensures r.Success? ==> |f.rows| > 0
    ensures r.Success? && d.bank == BoursoBank ==>
      && Column(f, "accountNum").Some? && r.value.number == Column(f, "accountNum").value[0]
      && Column(f, "accountbalance").Some?
      && |r.value.snapshots| == |f.rows|
      && forall i | 0 <= i < |f.rows| :: r.value.snapshots[i]
           == Snapshot(DateText(Column(f, d.date).value[i]), AmountText(Column(f, "accountbalance").value[i]))
    ensures d.bank == BoursoBank ==>
      (r.Success? <==> "accountNum" in f.columns && "accountbalance" in f.columns && |f.rows| > 0)
    ensures d.bank == BoursoBank && "accountNum" !in f.columns ==> r == Failure(MissingColumn("accountNum"))
    ensures d.bank == BoursoBank && "accountNum" in f.columns && |f.rows| > 0 && "accountbalance" !in f.columns ==>
      r == Failure(MissingColumn("accountbalance"))
    ensures d.bank == BNP ==> (r.Success? <==> kind == Spreadsheet && |firstRow| > 5 && |f.rows| > 0)
    ensures r.Success? && d.bank == BNP ==>
      && kind == Spreadsheet && |firstRow| > 5
      && r.value.number == firstRow[2]
      && r.value.snapshots == [Snapshot(DateText(Column(f, d.date).value[|f.rows| - 1]), AmountText(firstRow[5]))]
    ensures d.bank == BNP && kind != Spreadsheet ==> r == Failure(NotASpreadsheet)
  {
    var dates := Column(f, d.date).value;
    if d.bank.BoursoBank? then
      match Column(f, "accountNum")
      case None => Failure(MissingColumn("accountNum"))
      case Some(numbers) =>
        if |numbers| == 0 then Failure(MissingCell)
        else match Column(f, "accountbalance")
          case None => Failure(MissingColumn("accountbalance"))
          case Some(balances) =>
            Success(Statement(numbers[0],
              seq(|f.rows|, i requires 0 <= i < |f.rows| => Snapshot(DateText(dates[i]), AmountText(balances[i])))))
    else
      if kind != Spreadsheet then Failure(NotASpreadsheet)
      else if |firstRow| <= 2 then Failure(MissingCell)
      else if |dates| == 0 then Failure(MissingCell)
      else if |firstRow| <= 5 then Failure(MissingCell)
      else Success(Statement(firstRow[2], [Snapshot(DateText(dates[|dates| - 1]), AmountText(firstRow[5]))]))
  }

  /** The first account, in dict order, registered under the bank account number `number`. */
  function FindByNumber(accounts: seq<Account>, number: string): (r: Option<nat>)
    ensures r.Some? ==> r.value < |accounts| && accounts[r.value].number == number
    ensures r.Some? ==> forall j | 0 <= j < r.value :: accounts[j].number != number
    ensures r.None? <==> forall j | 0 <= j < |accounts| :: accounts[j].number != number
  {
    First(accounts, (a: Account) => a.number == number)
  }

  datatype Resolution = Resolution(accounts: seq<Account>, chosen: Result<string, ImportError>)

  /**
   * `handle_unrecognized_account` mapped to its effect. Creating stores the
   * statement's number and snapshots under the new name (replacing an entry
   * of that name); the dialog never records an empty name, so an empty name
   * ends like a closed window.
   */
  function ResolveUnknown(accounts: seq<Account>, number: string, snapshots: seq<Snapshot>, answer: Answer): (r: Resolution)
    ensures r.chosen.Failure? ==> r.accounts == accounts
    ensures r.chosen.Success? ==> r.chosen.value != ""
    ensures answer == Cancelled <==> r.chosen == Failure(ImportCancelled)
    ensures answer.Associated? && answer.name != "" ==> r == Resolution(accounts, Success(answer.name))
    ensures answer.Created? && answer.name != "" ==>
      && r.chosen == Success(answer.name)
      && Lookup(r.accounts, answer.name) == Some(Account(answer.name, number, snapshots))
      && r.accounts == Put(accounts, Account(answer.name, number, snapshots))
    ensures answer == Closed || ((answer.Associated? || answer.Created?) && answer.name == "") ==>
      r == Resolution(accounts, Failure(SelectionFailed))
    ensures UniqueNames(accounts) ==> UniqueNames(r.accounts)
  {
    match answer
    case Associated(name) =>
      if name != "" then Resolution(accounts, Success(name)) else Resolution(accounts, Failure(SelectionFailed))
    case Created(name) =>
      if name != "" then Resolution(Put(accounts, Account(name, number, snapshots)), Success(name))
      else Resolution(accounts, Failure(SelectionFailed))
    case Cancelled => Resolution(accounts, Failure(ImportCancelled))
    case Closed => Resolution(accounts, Failure(SelectionFailed))
  }

  /** `accounts[name]["account_balance"]` extended with `snapshots`; None where the key is missing. */
  function AppendHistory(accounts: seq<Account>, name: string, snapshots: seq<Snapshot>): (r: Option<seq<Account>>)
    ensures r.None? <==> !HasAccount(accounts, name)
    ensures r.Some? ==>
      var i := IndexOf(accounts, name).value;
      && |r.value| == |accounts|
      && r.value[i] == accounts[i].(history := accounts[i].history + snapshots)
      && forall j | 0 <= j < |accounts| && j != i :: r.value[j] == accounts[j]
    ensures r.Some? ==> forall j | 0 <= j < |accounts| ::
      r.value[j].name == accounts[j].name && r.value[j].number == accounts[j].number
    ensures r.Some? && UniqueNames(accounts) ==> UniqueNames(r.value)
  {
    match IndexOf(accounts, name)
    case Some(i) => Some(accounts[i := accounts[i].(history := accounts[i].history + snapshots)])
    case None => None
  }

  /** `pd.to_datetime` of a whole column: every cell converted, or an error naming the first that fails. */
  function ConvertDates(cells: seq<string>, toDatetime: string -> Option<When>): (r: Result<seq<When>, ImportError>)
    ensures r.Success? <==> forall i | 0 <= i < |cells| :: toDatetime(cells[i]).Some?
    ensures r.Success? ==> |r.value| == |cells| && forall i | 0 <= i < |cells| :: Some(r.value[i]) == toDatetime(cells[i])
    ensures r.Failure? ==> exists i | 0 <= i < |cells| :: toDatetime(cells[i]).None? && r.error == BadDate(cells[i])
  {
    match First(cells, c => toDatetime(c).None?)
    case Some(i) => Failure(BadDate(cells[i]))
    case None =>
      assert forall i | 0 <= i < |cells| :: toDatetime(cells[i]).Some? by {
        forall i | 0 <= i < |cells| ensures toDatetime(cells[i]).Some? {
          assert !(c => toDatetime(c).None?)(cells[i]);
        }
      }
      Success(seq(|cells|, i requires 0 <= i < |cells| => toDatetime(cells[i]).value))
  }

  /**
   * The rows a recognised statement contributes: dates converted, amounts
   * normalised and coerced, all filed under `account`, category "NC", not
   * monthly.
   */
  function DialectRows(d: Dialect, f: Frame, account: string, toDatetime: string -> Option<When>): (r: Result<seq<Operation>, ImportError>)
    requires d.date in f.columns
    ensures r.Success? ==> d.name in f.columns && d.amount in f.columns && |r.value| == |f.rows|
    ensures r.Success? ==> forall i | 0 <= i < |r.value| ::
      && Some(r.value[i].date) == toDatetime(Column(f, d.date).value[i])
      && r.value[i].name == Column(f, d.name).value[i]
      && r.value[i].amount == Coerce(Column(f, d.amount).value[i])
      && r.value[i].account == Some(account)
      && r.value[i].category == Some(Uncategorised)
      && !r.value[i].monthly
      && r.value[i].accentedCategory.None?
    ensures r.Success? <==>
      && (forall i | 0 <= i < |f.rows| :: toDatetime(Column(f, d.date).value[i]).Some?)
      && d.name in f.columns && d.amount in f.columns
    ensures ConvertDates(Column(f, d.date).value, toDatetime).Failure? ==>
      r == Failure(ConvertDates(Column(f, d.date).value, toDatetime).error)
    ensures ConvertDates(Column(f, d.date).value, toDatetime).Success? && d.name !in f.columns ==>
      r == Failure(MissingColumn(d.name))
    ensures ConvertDates(Column(f, d.date).value, toDatetime).Success? && d.name in f.columns && d.amount !in f.columns ==>
      r == Failure(MissingColumn(d.amount))
  {
    match ConvertDates(Column(f, d.date).value, toDatetime)
    case Failure(e) => Failure(e)
    case Success(dates) =>
      match Column(f, d.name)
      case None => Failure(MissingColumn(d.name))
      case Some(names) =>
        match Column(f, d.amount)
        case None => Failure(MissingColumn(d.amount))
        case Some(amounts) =>
          Success(seq(|f.rows|, i requires 0 <= i < |f.rows| =>
            Operation(dates[i], names[i], Some(account), Coerce(amounts[i]), Some(Uncategorised), false, None)))
  }

  /**
   * The rows a manually mapped table contributes: raw date and amount text,
   * no account, a null `category` and "NC" in the stray "Catégorie" column.
   */
  function MappedRows(mapping: Mapping, f: Frame): (r: Result<seq<Operation>, ImportError>)
    ensures r.Success? <==> mapping.date in f.columns && mapping.name in f.columns && mapping.amount in f.columns
    ensures r.Success? ==> |r.value| == |f.rows|
    ensures r.Success? ==> forall i | 0 <= i < |r.value| ::
      && r.value[i].date == DateText(Column(f, mapping.date).value[i])
      && r.value[i].name == Column(f, mapping.name).value[i]
      && r.value[i].amount == AmountText(Column(f, mapping.amount).value[i])
      && r.value[i].account.None?
      && r.value[i].category.None?
      && !r.value[i].monthly
      && r.value[i].accentedCategory == Some(Uncategorised)
  {
    match Column(f, mapping.date)
    case None => Failure(MissingColumn(mapping.date))
    case Some(dates) =>
      match Column(f, mapping.name)
      case None => Failure(MissingColumn(mapping.name))
      case Some(names) =>
        match Column(f, mapping.amount)
        case None => Failure(MissingColumn(mapping.amount))
        case Some(amounts) =>
          Success(seq(|f.rows|, i requires 0 <= i < |f.rows| =>
            Operation(DateText(dates[i]), names[i], None, AmountText(amounts[i]), None, false, Some(Uncategorised))))
  }

  /** The last step: an empty result raises, anything else goes after the existing rows. */
  function Append(m: Manager, rows: seq<Operation>): (r: Outcome)
    ensures |rows| == 0 <==> r == Raised(NoDataLoaded, m)
    ensures |rows| > 0 ==> r == Imported(m.(operations := m.operations + rows))
  {
    if |rows| == 0 then Raised(NoDataLoaded, m) else Imported(m.(operations := m.operations + rows))
  }

  /** The account a statement's rows go to, found by number or asked of the collaborator. */
  function ResolveAccount(accounts: seq<Account>, st: Statement, answer: Answer): (r: Resolution)
    ensures FindByNumber(accounts, st.number).Some? ==>
      r == Resolution(accounts, Success(accounts[FindByNumber(accounts, st.number).value].name))
    ensures FindByNumber(accounts, st.number).None? ==> r == ResolveUnknown(accounts, st.number, st.snapshots, answer)
  {
    match FindByNumber(accounts, st.number)
    case Some(i) => Resolution(accounts, Success(accounts[i].name))
    case None => ResolveUnknown(accounts, st.number, st.snapshots, answer)
  }

  /**
   * The statement path for an account already registered under the
   * statement's number: the account's history gains the snapshots whatever
   * happens next; the import then succeeds exactly when the rows can be
   * built, and appends them, or raises the error building them raised.
   */
  predicate KnownAccountOutcome(m: Manager, d: Dialect, f: Frame, st: Statement,
                                toDatetime: string -> Option<When>, r: Outcome)
    requires d.date in f.columns
    requires FindByNumber(m.accounts, st.number).Some?
  {
    ResolvedOutcome(m, d, f, st, m.accounts, m.accounts[FindByNumber(m.accounts, st.number).value].name, toDatetime, r)
  }

  /**
   * The statement path once the account is settled: `accounts` is the
   * registry after resolution and `name` the account chosen. Its history
   * gains the snapshots whatever happens next; the import then succeeds
   * exactly when the rows can be built, and appends them, or raises the
   * error building them raised.
   */
  predicate ResolvedOutcome(m: Manager, d: Dialect, f: Frame, st: Statement, accounts: seq<Account>, name: string,
                            toDatetime: string -> Option<When>, r: Outcome)
    requires d.date in f.columns
  {
    var rows := DialectRows(d, f, name, toDatetime);
    && AppendHistory(accounts, name, st.snapshots).Some?
    && r.state.accounts == AppendHistory(accounts, name, st.snapshots).value
    && r.state.categories == m.categories
    && (r.Imported? <==> rows.Success?)
    && (r.Imported? ==> r.state.operations == m.operations + rows.value)
    && (r.Raised? ==> r.error == rows.error && r.state.operations == m.operations)
  }

  /** The import once dialect `d` is known to match. */
  function ImportStatement(m: Manager, d: Dialect, kind: FileKind, f: Frame, firstRow: seq<string>,
                           answer: Answer, toDatetime: string -> Option<When>): (r: Outcome)
    requires d.date in f.columns
    ensures r.state.categories == m.categories
    ensures r.Raised? ==> r.state.operations == m.operations
    ensures r.Imported? ==> |r.state.operations| == |m.operations| + |f.rows| > |m.operations|
    ensures r.Imported? ==> r.state.operations[..|m.operations|] == m.operations
    ensures UniqueNames(m.accounts) ==> UniqueNames(r.state.accounts)
    ensures r.Raised? && r.error == ImportCancelled ==> r.state == m
    ensures r.Raised? ==> r.error != NoDataLoaded && r.error != MappingRequired
  {
    match ExtractStatement(d, kind, f, firstRow)
    case Failure(e) => Raised(e, m)
    case Success(st) =>
      var res := ResolveAccount(m.accounts, st, answer);
      var m1 := m.(accounts := res.accounts);
      match res.chosen
      case Failure(e) => Raised(e, m1)
      case Success(name) =>
        match AppendHistory(m1.accounts, name, st.snapshots)
        case None => Raised(NoSuchAccount(name), m1)
        case Some(accounts) =>
          var m2 := m1.(accounts := accounts);
          match DialectRows(d, f, name, toDatetime)
          case Failure(e) => Raised(e, m2)
          case Success(rows) =>
            assert (m2.operations + rows)[..|m.operations|] == m.operations;
            Append(m2, rows)
  }

  /**
   * When the statement path raises and when it succeeds: a statement that
   * cannot be extracted raises that error with nothing changed; an unknown
   * number with a cancelled or closed dialog raises with nothing changed; a
   * known number proceeds as `KnownAccountOutcome` says.
   */
  lemma StatementOutcome(m: Manager, d: Dialect, kind: FileKind, f: Frame, firstRow: seq<string>,
                         answer: Answer, toDatetime: string -> Option<When>)
    requires d.date in f.columns
    ensures var r := ImportStatement(m, d, kind, f, firstRow, answer, toDatetime);
      ExtractStatement(d, kind, f, firstRow).Failure? ==> r == Raised(ExtractStatement(d, kind, f, firstRow).error, m)
    ensures var r := ImportStatement(m, d, kind, f, firstRow, answer, toDatetime);
      ExtractStatement(d, kind, f, firstRow).Success? ==>
      var st := ExtractStatement(d, kind, f, firstRow).value;
      && (FindByNumber(m.accounts, st.number).None? && answer == Cancelled ==> r == Raised(ImportCancelled, m))
      && (FindByNumber(m.accounts, st.number).None? && answer == Closed ==> r == Raised(SelectionFailed, m))
      && (FindByNumber(m.accounts, st.number).Some? ==> KnownAccountOutcome(m, d, f, st, toDatetime, r))
  {
    match ExtractStatement(d, kind, f, firstRow)
    case Failure(_) =>
    case Success(st) =>
      var k := FindByNumber(m.accounts, st.number);
      if k.Some? {
        var name := m.accounts[k.value].name;
        assert HasAccount(m.accounts, name);
      }
  }

  /**
   * The statement path for a number no account holds, answered with a name:
   * creating registers the statement's account under the name and then
   * proceeds as for a known account; associating with an existing name
   * proceeds on that account; associating with a name the registry lacks
   * raises `NoSuchAccount` with nothing changed.
   */
  lemma DialogOutcome(m: Manager, d: Dialect, kind: FileKind, f: Frame, firstRow: seq<string>,
                      answer: Answer, toDatetime: string -> Option<When>)
    requires d.date in f.columns
    ensures var r := ImportStatement(m, d, kind, f, firstRow, answer, toDatetime);
      ExtractStatement(d, kind, f, firstRow).Success? ==>
      var st := ExtractStatement(d, kind, f, firstRow).value;
      FindByNumber(m.accounts, st.number).None? ==>
      && (answer.Created? && answer.name != "" ==>
            ResolvedOutcome(m, d, f, st, Put(m.accounts, Account(answer.name, st.number, st.snapshots)), answer.name, toDatetime, r))
      && (answer.Associated? && answer.name != "" && HasAccount(m.accounts, answer.name) ==>
            ResolvedOutcome(m, d, f, st, m.accounts, answer.name, toDatetime, r))
      && (answer.Associated? && answer.name != "" && !HasAccount(m.accounts, answer.name) ==>
            r == Raised(NoSuchAccount(answer.name), m))
  {
    match ExtractStatement(d, kind, f, firstRow)
    case Failure(_) =>
    case Success(st) =>
      if FindByNumber(m.accounts, st.number).None? && answer.Created? && answer.name != "" {
        var put := Put(m.accounts, Account(answer.name, st.number, st.snapshots));
        assert IndexOf(put, answer.name).Some?;
      }
  }

  /** The import when no dialect matched: only a manual mapping lets it proceed. */
  function ImportMapped(m: Manager, f: Frame, mapping: Option<Mapping>): (r: Outcome)
    ensures r.Raised? ==> r.state == m
    ensures mapping.None? <==> r == Raised(MappingRequired, m)
    ensures r.Imported? ==> r.state.accounts == m.accounts && r.state.categories == m.categories
    ensures r.Imported? ==> |r.state.operations| == |m.operations| + |f.rows| > |m.operations|
    ensures r.Imported? ==> r.state.operations[..|m.operations|] == m.operations
  {
    match mapping
    case None => Raised(MappingRequired, m)
    case Some(mp) =>
      match MappedRows(mp, f)
      case Failure(e) => Raised(e, m)
      case Success(rows) =>
        assert (m.operations + rows)[..|m.operations|] == m.operations;
        Append(m, rows)
  }

  /**
   * When the manual-mapping path succeeds: a mapping naming three present
   * columns imports every row of a non-empty table; a missing column raises
   * that error and an empty table "No data loaded", with nothing changed.
   */
  lemma MappedPathOutcome(m: Manager, f: Frame, mapping: Mapping)
    ensures MappedRows(mapping, f).Failure? ==> ImportMapped(m, f, Some(mapping)) == Raised(MappedRows(mapping, f).error, m)
    ensures MappedRows(mapping, f).Success? && |f.rows| == 0 ==> ImportMapped(m, f, Some(mapping)) == Raised(NoDataLoaded, m)
    ensures MappedRows(mapping, f).Success? && |f.rows| > 0 ==>
      ImportMapped(m, f, Some(mapping)) == Imported(m.(operations := m.operations + MappedRows(mapping, f).value))
  {
  }

  /**
   * `import_operations_from_excel(path, gui, mapping)`. `f` is the table
   * pandas loaded (after skipping the header locator's rows), `firstRow` the
   * spreadsheet's first raw line, `answer` what the collaborator would
   * answer if asked, `toDatetime` pandas' date conversion (None: it raises).
   */
  function ImportOperations(m: Manager, path: string, f: Frame, firstRow: seq<string>, answer: Answer,
                            mapping: Option<Mapping>, toDatetime: string -> Option<When>): (r: Outcome)
    ensures KindOf(path) == OtherFile ==> r == Raised(UnsupportedFileType, m)
    ensures r.state.categories == m.categories
    ensures r.Raised? ==> r.state.operations == m.operations
    ensures r.Imported? ==> |r.state.operations| == |m.operations| + |f.rows| > |m.operations|
    ensures r.Imported? ==> r.state.operations[..|m.operations|] == m.operations
    ensures UniqueNames(m.accounts) ==> UniqueNames(r.state.accounts)
    ensures r == Raised(MappingRequired, m) <==>
      KindOf(path) != OtherFile && DetectDialect(Registry, f.columns).None? && mapping.None?
    ensures r.Raised? && r.error == ImportCancelled ==> r.state == m
    ensures r.Raised? && r.error == NoDataLoaded ==>
      r.state == m && |f.rows| == 0 && DetectDialect(Registry, f.columns).None?
  {
    var kind := KindOf(path);
    if kind == OtherFile then Raised(UnsupportedFileType, m)
    else
      match DetectDialect(Registry, f.columns)
      case Some(k) =>
        ImportStatement(m, Registry[k], kind, f, firstRow, answer, toDatetime)
      case None => ImportMapped(m, f, mapping)
  }
}

/** Properties relating several imports, or an import to the state it starts from. */
module ImportProperties {
  import opened Wrappers
  import opened Amounts
  import opened Ledger
  import opened Dialects
  import opened Import
  import opened Categorize

  /** The statement a recognised table yields, when extraction succeeds. */
  predicate Recognised(path: string, f: Frame, firstRow: seq<string>, k: nat, st: Statement) {
    && KindOf(path) != OtherFile
    && DetectDialect(Registry, f.columns) == Some(k)
    && ExtractStatement(Registry[k], KindOf(path), f, firstRow) == Success(st)
  }

  /** A recognised table goes through the statement path with the dialect detected. */
  lemma Dispatch(m: Manager, path: string, f: Frame, firstRow: seq<string>, k: nat, st: Statement,
                 answer: Answer, mapping: Option<Mapping>, toDatetime: string -> Option<When>)
    requires Recognised(path, f, firstRow, k, st)
    ensures k < |Registry| && Registry[k].date in f.columns
    ensures ImportOperations(m, path, f, firstRow, answer, mapping, toDatetime)
         == ImportStatement(m, Registry[k], KindOf(path), f, firstRow, answer, toDatetime)
  {
  }

  /** A recognised table whose statement cannot be read raises what reading it raised; nothing changes. */
  lemma ExtractFailureRaises(m: Manager, path: string, f: Frame, firstRow: seq<string>, k: nat,
                             answer: Answer, mapping: Option<Mapping>, toDatetime: string -> Option<When>)
    requires KindOf(path) != OtherFile && DetectDialect(Registry, f.columns) == Some(k)
    requires ExtractStatement(Registry[k], KindOf(path), f, firstRow).Failure?
    ensures ImportOperations(m, path, f, firstRow, answer, mapping, toDatetime)
         == Raised(ExtractStatement(Registry[k], KindOf(path), f, firstRow).error, m)
  {
    StatementOutcome(m, Registry[k], KindOf(path), f, firstRow, answer, toDatetime);
  }

  /**
   * For a number no account holds, cancelling the dialog raises
   * `ImportCancelled` and closing it raises `SelectionFailed`, and nothing
   * changes.
   */
  lemma UnknownNumberDialogRaises(m: Manager, path: string, f: Frame, firstRow: seq<string>, k: nat, st: Statement,
                                  mapping: Option<Mapping>, toDatetime: string -> Option<When>)
    requires Recognised(path, f, firstRow, k, st)
    requires FindByNumber(m.accounts, st.number).None?
    ensures ImportOperations(m, path, f, firstRow, Cancelled, mapping, toDatetime) == Raised(ImportCancelled, m)
    ensures ImportOperations(m, path, f, firstRow, Closed, mapping, toDatetime) == Raised(SelectionFailed, m)
  {
    Dispatch(m, path, f, firstRow, k, st, Cancelled, mapping, toDatetime);
    Dispatch(m, path, f, firstRow, k, st, Closed, mapping, toDatetime);
    StatementOutcome(m, Registry[k], KindOf(path), f, firstRow, Cancelled, toDatetime);
    StatementOutcome(m, Registry[k], KindOf(path), f, firstRow, Closed, toDatetime);
  }

  /** For a number no account holds, an empty name from the dialog raises `SelectionFailed` and nothing changes. */
  lemma UnknownNumberEmptyNameRaises(m: Manager, path: string, f: Frame, firstRow: seq<string>, k: nat, st: Statement,
                                     mapping: Option<Mapping>, toDatetime: string -> Option<When>)
    requires Recognised(path, f, firstRow, k, st)
    requires FindByNumber(m.accounts, st.number).None?
    ensures ImportOperations(m, path, f, firstRow, Created(""), mapping, toDatetime) == Raised(SelectionFailed, m)
    ensures ImportOperations(m, path, f, firstRow, Associated(""), mapping, toDatetime) == Raised(SelectionFailed, m)
  {
    Dispatch(m, path, f, firstRow, k, st, Created(""), mapping, toDatetime);
    Dispatch(m, path, f, firstRow, k, st, Associated(""), mapping, toDatetime);
  }

  /**
   * For a number no account holds, a created account is registered and then
   * imported into; an existing name chosen in the dialog is imported into;
   * a chosen name the registry lacks raises `NoSuchAccount`. In the first two
   * cases the import succeeds exactly when the rows can be built.
   */
  lemma UnknownNumberDialogImports(m: Manager, path: string, f: Frame, firstRow: seq<string>, k: nat, st: Statement,
                                   answer: Answer, mapping: Option<Mapping>, toDatetime: string -> Option<When>)
    requires Recognised(path, f, firstRow, k, st)
    requires FindByNumber(m.accounts, st.number).None?
    ensures k < |Registry| && Registry[k].date in f.columns
    ensures var r := ImportOperations(m, path, f, firstRow, answer, mapping, toDatetime);
      && (answer.Created? && answer.name != "" ==>
            ResolvedOutcome(m, Registry[k], f, st, Put(m.accounts, Account(answer.name, st.number, st.snapshots)), answer.name, toDatetime, r))
      && (answer.Associated? && answer.name != "" && HasAccount(m.accounts, answer.name) ==>
            ResolvedOutcome(m, Registry[k], f, st, m.accounts, answer.name, toDatetime, r))
      && (answer.Associated? && answer.name != "" && !HasAccount(m.accounts, answer.name) ==>
            r == Raised(NoSuchAccount(answer.name), m))
  {
    Dispatch(m, path, f, firstRow, k, st, answer, mapping, toDatetime);
    DialogOutcome(m, Registry[k], KindOf(path), f, firstRow, answer, toDatetime);
  }

  /**
   * For a number an account holds, the import appends the snapshots to that
   * account, then succeeds exactly when the rows can be built and appends
   * them, or raises what building them raised.
   */
  lemma KnownNumberOutcome(m: Manager, path: string, f: Frame, firstRow: seq<string>, k: nat, st: Statement,
                           answer: Answer, mapping: Option<Mapping>, toDatetime: string -> Option<When>)
    requires Recognised(path, f, firstRow, k, st)
    requires FindByNumber(m.accounts, st.number).Some?
    ensures k < |Registry| && Registry[k].date in f.columns
    ensures KnownAccountOutcome(m, Registry[k], f, st, toDatetime, ImportOperations(m, path, f, firstRow, answer, mapping, toDatetime))
  {
    Dispatch(m, path, f, firstRow, k, st, answer, mapping, toDatetime);
    StatementOutcome(m, Registry[k], KindOf(path), f, firstRow, answer, toDatetime);
  }

  /**
   * A table no dialect matches, imported with a mapping: a missing column
   * raises, an empty table raises `NoDataLoaded`, anything else appends the
   * mapped rows and changes nothing else.
   */
  lemma MappedImportOutcome(m: Manager, path: string, f: Frame, firstRow: seq<string>,
                            answer: Answer, mapping: Mapping, toDatetime: string -> Option<When>)
    requires KindOf(path) != OtherFile && DetectDialect(Registry, f.columns).None?
    ensures var r := ImportOperations(m, path, f, firstRow, answer, Some(mapping), toDatetime);
      && (MappedRows(mapping, f).Failure? ==> r == Raised(MappedRows(mapping, f).error, m))
      && (MappedRows(mapping, f).Success? && |f.rows| == 0 ==> r == Raised(NoDataLoaded, m))
      && (MappedRows(mapping, f).Success? && |f.rows| > 0 ==>
            r == Imported(m.(operations := m.operations + MappedRows(mapping, f).value)))
  {
    DispatchMapped(m, path, f, firstRow, answer, Some(mapping), toDatetime);
    MappedPathOutcome(m, f, mapping);
  }

  lemma StatementIgnoresAnswer(m: Manager, d: Dialect, kind: FileKind, f: Frame, firstRow: seq<string>, st: Statement,
                               a1: Answer, a2: Answer, toDatetime: string -> Option<When>)
    requires d.date in f.columns
    requires ExtractStatement(d, kind, f, firstRow) == Success(st)
    requires FindByNumber(m.accounts, st.number).Some?
    ensures ImportStatement(m, d, kind, f, firstRow, a1, toDatetime) == ImportStatement(m, d, kind, f, firstRow, a2, toDatetime)
  {
    assert ResolveAccount(m.accounts, st, a1) == ResolveAccount(m.accounts, st, a2);
  }

  /**
   * When an account already carries the statement's number the collaborator
   * is never consulted: any two answers give the same outcome.
   */
  lemma KnownNumberIgnoresAnswer(m: Manager, path: string, f: Frame, firstRow: seq<string>, k: nat, st: Statement,
                                 a1: Answer, a2: Answer, mapping: Option<Mapping>, toDatetime: string -> Option<When>)
    requires Recognised(path, f, firstRow, k, st)
    requires FindByNumber(m.accounts, st.number).Some?
    ensures ImportOperations(m, path, f, firstRow, a1, mapping, toDatetime)
         == ImportOperations(m, path, f, firstRow, a2, mapping, toDatetime)
  {
    Dispatch(m, path, f, firstRow, k, st, a1, mapping, toDatetime);
    Dispatch(m, path, f, firstRow, k, st, a2, mapping, toDatetime);
    StatementIgnoresAnswer(m, Registry[k], KindOf(path), f, firstRow, st, a1, a2, toDatetime);
  }

  lemma StatementKnownAccount(m: Manager, d: Dialect, kind: FileKind, f: Frame, firstRow: seq<string>, st: Statement,
                              answer: Answer, toDatetime: string -> Option<When>)
    requires d.date in f.columns
    requires ExtractStatement(d, kind, f, firstRow) == Success(st)
    requires UniqueNames(m.accounts)
    requires FindByNumber(m.accounts, st.number).Some?
    ensures var accounts := ImportStatement(m, d, kind, f, firstRow, answer, toDatetime).state.accounts;
      var i := FindByNumber(m.accounts, st.number).value;
      && |accounts| == |m.accounts|
      && accounts[i] == m.accounts[i].(history := m.accounts[i].history + st.snapshots)
      && forall j | 0 <= j < |m.accounts| && j != i :: accounts[j] == m.accounts[j]
  {
    var i := FindByNumber(m.accounts, st.number).value;
    var name := m.accounts[i].name;
    assert IndexOf(m.accounts, name) == Some(i) by {
      var x := IndexOf(m.accounts, name);
      assert HasAccount(m.accounts, name);
      assert x.value == i;
    }
  }

  /**
   * A known account (the first with the statement's number) gets the
   * statement's snapshots appended to its history and every other account
   * is untouched, whether or not the import later raises.
   */
  lemma KnownAccountGetsSnapshots(m: Manager, path: string, f: Frame, firstRow: seq<string>, k: nat, st: Statement,
                                  answer: Answer, mapping: Option<Mapping>, toDatetime: string -> Option<When>)
    requires Recognised(path, f, firstRow, k, st)
    requires UniqueNames(m.accounts)
    requires FindByNumber(m.accounts, st.number).Some?
    ensures var r := ImportOperations(m, path, f, firstRow, answer, mapping, toDatetime);
      var i := FindByNumber(m.accounts, st.number).value;
      && |r.state.accounts| == |m.accounts|
      && r.state.accounts[i] == m.accounts[i].(history := m.accounts[i].history + st.snapshots)
      && forall j | 0 <= j < |m.accounts| && j != i :: r.state.accounts[j] == m.accounts[j]
  {
    Dispatch(m, path, f, firstRow, k, st, answer, mapping, toDatetime);
    StatementKnownAccount(m, Registry[k], KindOf(path), f, firstRow, st, answer, toDatetime);
  }

  /** Creating a fresh name through the collaborator registers it last, seeded with the snapshots. */
  lemma CreatedResolution(accounts: seq<Account>, st: Statement, newName: string)
    requires FindByNumber(accounts, st.number).None?
    requires newName != "" && !HasAccount(accounts, newName)
    ensures ResolveAccount(accounts, st, Created(newName))
         == Resolution(accounts + [Account(newName, st.number, st.snapshots)], Success(newName))
  {
  }

  /** Appending to the history of the last entry, whose name no earlier entry has. */
  lemma AppendToLast(accounts: seq<Account>, a: Account, snapshots: seq<Snapshot>)
    requires !HasAccount(accounts, a.name)
    ensures AppendHistory(accounts + [a], a.name, snapshots) == Some(accounts + [a.(history := a.history + snapshots)])
  {
    var all := accounts + [a];
    IndexOfAppended(accounts, a);
    assert all[|accounts| := a.(history := a.history + snapshots)] == accounts + [a.(history := a.history + snapshots)];
  }

  lemma StatementCreatedAccount(m: Manager, d: Dialect, kind: FileKind, f: Frame, firstRow: seq<string>, st: Statement,
                                newName: string, toDatetime: string -> Option<When>)
    requires d.date in f.columns
    requires ExtractStatement(d, kind, f, firstRow) == Success(st)
    requires FindByNumber(m.accounts, st.number).None?
    requires newName != "" && !HasAccount(m.accounts, newName)
    ensures ImportStatement(m, d, kind, f, firstRow, Created(newName), toDatetime).state.accounts
         == m.accounts + [Account(newName, st.number, st.snapshots + st.snapshots)]
  {
    CreatedResolution(m.accounts, st, newName);
    AppendToLast(m.accounts, Account(newName, st.number, st.snapshots), st.snapshots);
  }

  /**
   * A new account created through the collaborator is registered last with
   * the statement's number, and its history holds the statement's snapshots
   * twice: once as the seed the dialog stores, once from the append that
   * follows.
   */
  lemma CreatedAccountHoldsSnapshotsTwice(m: Manager, path: string, f: Frame, firstRow: seq<string>, k: nat, st: Statement,
                                          newName: string, mapping: Option<Mapping>, toDatetime: string -> Option<When>)
    requires Recognised(path, f, firstRow, k, st)
    requires FindByNumber(m.accounts, st.number).None?
    requires newName != "" && !HasAccount(m.accounts, newName)
    ensures ImportOperations(m, path, f, firstRow, Created(newName), mapping, toDatetime).state.accounts
         == m.accounts + [Account(newName, st.number, st.snapshots + st.snapshots)]
  {
    Dispatch(m, path, f, firstRow, k, st, Created(newName), mapping, toDatetime);
    StatementCreatedAccount(m, Registry[k], KindOf(path), f, firstRow, st, newName, toDatetime);
  }

  /**
   * The rows of `s` from position `n` on, one per row of `f`, carry the
   * converted date, the name and the coerced amount of their row's cells in
   * the dialect's columns, are "NC", not monthly, and name an account of `s`.
   */
  predicate StatementRowsAt(s: Manager, n: nat, f: Frame, d: Dialect, toDatetime: string -> Option<When>)
    requires d.date in f.columns && d.name in f.columns && d.amount in f.columns
  {
    && n + |f.rows| <= |s.operations|
    && forall i | 0 <= i < |f.rows| ::
      && Some(s.operations[n + i].date) == toDatetime(Column(f, d.date).value[i])
      && s.operations[n + i].name == Column(f, d.name).value[i]
      && s.operations[n + i].category == Some(Uncategorised)
      && !s.operations[n + i].monthly
      && s.operations[n + i].amount == Coerce(Column(f, d.amount).value[i])
      && s.operations[n + i].account.Some?
      && HasAccount(s.accounts, s.operations[n + i].account.value)
  }

  /**
   * The rows of `ops` from position `n` on, one per row of `f`, have no
   * account, a null category, "NC" in "Catégorie" and the raw text of their
   * `amount` cell.
   */
  predicate MappedRowsAt(ops: seq<Operation>, n: nat, f: Frame, amount: string)
    requires amount in f.columns
  {
    && n + |f.rows| <= |ops|
    && forall i | 0 <= i < |f.rows| ::
      && ops[n + i].account.None?
      && ops[n + i].category.None?
      && ops[n + i].accentedCategory == Some(Uncategorised)
      && ops[n + i].amount == AmountText(Column(f, amount).value[i])
  }

  /** Rows built by `DialectRows` for an account of `s`, appended after `before`, have the statement shape. */
  lemma AppendedRowsAt(s: Manager, before: seq<Operation>, d: Dialect, f: Frame, name: string,
                       toDatetime: string -> Option<When>)
    requires d.date in f.columns
    requires DialectRows(d, f, name, toDatetime).Success?
    requires s.operations == before + DialectRows(d, f, name, toDatetime).value
    requires HasAccount(s.accounts, name)
    ensures d.name in f.columns && d.amount in f.columns
    ensures StatementRowsAt(s, |before|, f, d, toDatetime)
  {
    var rows := DialectRows(d, f, name, toDatetime).value;
    forall i | 0 <= i < |f.rows| ensures s.operations[|before| + i] == rows[i] {
    }
  }

  lemma StatementRowsShape(m: Manager, d: Dialect, kind: FileKind, f: Frame, firstRow: seq<string>, st: Statement,
                           answer: Answer, toDatetime: string -> Option<When>)
    requires d.date in f.columns
    requires ExtractStatement(d, kind, f, firstRow) == Success(st)
    ensures var r := ImportStatement(m, d, kind, f, firstRow, answer, toDatetime);
      r.Imported? ==> d.name in f.columns && d.amount in f.columns && StatementRowsAt(r.state, |m.operations|, f, d, toDatetime)
  {
    var r := ImportStatement(m, d, kind, f, firstRow, answer, toDatetime);
    if r.Imported? {
      var res := ResolveAccount(m.accounts, st, answer);
      var name := res.chosen.value;
      var accounts := AppendHistory(res.accounts, name, st.snapshots).value;
      var idx := IndexOf(res.accounts, name).value;
      assert accounts[idx].name == name;
      assert HasAccount(accounts, name);
      var rows := DialectRows(d, f, name, toDatetime).value;
      assert r.state == Manager(accounts, m.categories, m.operations + rows);
      AppendedRowsAt(r.state, m.operations, d, f, name, toDatetime);
    }
  }

  /**
   * The rows a recognised statement adds come after the old ones, carry
   * the converted date, the name and the coerced amount of their row's
   * cells, are all "NC" and not monthly, and name an account that exists
   * afterwards.
   */
  lemma RecognisedRowsShape(m: Manager, path: string, f: Frame, firstRow: seq<string>, k: nat, st: Statement,
                            answer: Answer, mapping: Option<Mapping>, toDatetime: string -> Option<When>)
    requires Recognised(path, f, firstRow, k, st)
    ensures var r := ImportOperations(m, path, f, firstRow, answer, mapping, toDatetime);
      r.Imported? ==>
        && Registry[k].name in f.columns && Registry[k].amount in f.columns
        && StatementRowsAt(r.state, |m.operations|, f, Registry[k], toDatetime)
  {
    Dispatch(m, path, f, firstRow, k, st, answer, mapping, toDatetime);
    StatementRowsShape(m, Registry[k], KindOf(path), f, firstRow, st, answer, toDatetime);
  }

  lemma MappedOutcome(m: Manager, f: Frame, mapping: Option<Mapping>)
    requires ImportMapped(m, f, mapping).Imported?
    ensures mapping.Some? && MappedRows(mapping.value, f).Success?
    ensures ImportMapped(m, f, mapping).state.operations == m.operations + MappedRows(mapping.value, f).value
  {
  }

  /** A table no dialect matches goes through the manual-mapping path. */
  lemma DispatchMapped(m: Manager, path: string, f: Frame, firstRow: seq<string>,
                       answer: Answer, mapping: Option<Mapping>, toDatetime: string -> Option<When>)
    requires KindOf(path) != OtherFile && DetectDialect(Registry, f.columns).None?
    ensures ImportOperations(m, path, f, firstRow, answer, mapping, toDatetime) == ImportMapped(m, f, mapping)
  {
  }

  lemma MappedPathRowsShape(m: Manager, f: Frame, mapping: Option<Mapping>)
    requires ImportMapped(m, f, mapping).Imported?
    ensures mapping.Some? && mapping.value.amount in f.columns
    ensures MappedRowsAt(ImportMapped(m, f, mapping).state.operations, |m.operations|, f, mapping.value.amount)
  {
    MappedOutcome(m, f, mapping);
    var ops := ImportMapped(m, f, mapping).state.operations;
    var rows := MappedRows(mapping.value, f).value;
    forall i | 0 <= i < |f.rows| ensures ops[|m.operations| + i] == rows[i] {
    }
  }

  /**
   * The rows a manual mapping adds have no account, a null category and
   * "NC" in the stray "Catégorie" column, and their amounts stay raw text.
   */
  lemma MappedRowsShape(m: Manager, path: string, f: Frame, firstRow: seq<string>,
                        answer: Answer, mapping: Option<Mapping>, toDatetime: string -> Option<When>)
    requires KindOf(path) != OtherFile && DetectDialect(Registry, f.columns).None?
    requires ImportOperations(m, path, f, firstRow, answer, mapping, toDatetime).Imported?
    ensures mapping.Some? && mapping.value.amount in f.columns
    ensures var ops := ImportOperations(m, path, f, firstRow, answer, mapping, toDatetime).state.operations;
      MappedRowsAt(ops, |m.operations|, f, mapping.value.amount)
  {
    DispatchMapped(m, path, f, firstRow, answer, mapping, toDatetime);
    MappedPathRowsShape(m, f, mapping);
  }

  /** Every row past the first `n` is uncategorised. */
  predicate TailUncategorised(ops: seq<Operation>, n: nat) {
    forall i | n <= i < |ops| :: IsUncategorised(ops[i])
  }

  lemma StatementRowsAtTail(s: Manager, n: nat, f: Frame, d: Dialect, toDatetime: string -> Option<When>)
    requires d.date in f.columns && d.name in f.columns && d.amount in f.columns
    requires StatementRowsAt(s, n, f, d, toDatetime) && |s.operations| == n + |f.rows|
    ensures TailUncategorised(s.operations, n)
  {
    forall j | n <= j < |s.operations| ensures IsUncategorised(s.operations[j]) {
      var i := j - n;
      assert 0 <= i < |f.rows|;
      assert s.operations[n + i].amount == Coerce(Column(f, d.amount).value[i]);
    }
  }

  lemma MappedRowsAtTail(ops: seq<Operation>, n: nat, f: Frame, amount: string)
    requires amount in f.columns
    requires MappedRowsAt(ops, n, f, amount) && |ops| == n + |f.rows|
    ensures TailUncategorised(ops, n)
  {
    forall j | n <= j < |ops| ensures IsUncategorised(ops[j]) {
      var i := j - n;
      assert 0 <= i < |f.rows|;
      assert ops[n + i].amount == AmountText(Column(f, amount).value[i]);
    }
  }

  lemma StatementTailUncategorised(m: Manager, d: Dialect, kind: FileKind, f: Frame, firstRow: seq<string>, st: Statement,
                                   answer: Answer, toDatetime: string -> Option<When>)
    requires d.date in f.columns
    requires ExtractStatement(d, kind, f, firstRow) == Success(st)
    ensures var r := ImportStatement(m, d, kind, f, firstRow, answer, toDatetime);
      r.Imported? ==> TailUncategorised(r.state.operations, |m.operations|)
  {
    var r := ImportStatement(m, d, kind, f, firstRow, answer, toDatetime);
    StatementRowsShape(m, d, kind, f, firstRow, st, answer, toDatetime);
    if r.Imported? {
      StatementRowsAtTail(r.state, |m.operations|, f, d, toDatetime);
    }
  }

  lemma MappedTailUncategorised(m: Manager, f: Frame, mapping: Option<Mapping>)
    requires ImportMapped(m, f, mapping).Imported?
    ensures TailUncategorised(ImportMapped(m, f, mapping).state.operations, |m.operations|)
  {
    MappedPathRowsShape(m, f, mapping);
    MappedRowsAtTail(ImportMapped(m, f, mapping).state.operations, |m.operations|, f, mapping.value.amount);
  }

  /** The rows past `n` that are uncategorised are all in the window's backlog. */
  lemma TailInBacklog(ops: seq<Operation>, n: nat)
    requires TailUncategorised(ops, n)
    ensures forall i | n <= i < |ops| :: i in UncategorisedRows(ops)
  {
  }

  /** Every row an import adds is waiting in the categorisation window's backlog. */
  lemma ImportedRowsAwaitCategory(m: Manager, path: string, f: Frame, firstRow: seq<string>,
                                  answer: Answer, mapping: Option<Mapping>, toDatetime: string -> Option<When>)
    ensures var r := ImportOperations(m, path, f, firstRow, answer, mapping, toDatetime);
      r.Imported? ==> forall i | |m.operations| <= i < |r.state.operations| :: i in UncategorisedRows(r.state.operations)
  {
    var r := ImportOperations(m, path, f, firstRow, answer, mapping, toDatetime);
    if r.Imported? {
      match DetectDialect(Registry, f.columns)
      case Some(k) =>
        var st := ExtractStatement(Registry[k], KindOf(path), f, firstRow).value;
        Dispatch(m, path, f, firstRow, k, st, answer, mapping, toDatetime);
        StatementTailUncategorised(m, Registry[k], KindOf(path), f, firstRow, st, answer, toDatetime);
        TailInBacklog(r.state.operations, |m.operations|);
      case None =>
        DispatchMapped(m, path, f, firstRow, answer, mapping, toDatetime);
        MappedTailUncategorised(m, f, mapping);
        TailInBacklog(r.state.operations, |m.operations|);
    }
  }

  /** Two registries with the same numbers in the same order resolve a number to the same position. */
  lemma SameNumbersSameMatch(a: seq<Account>, b: seq<Account>, number: string)
    requires |a| == |b|
    requires forall j | 0 <= j < |a| :: a[j].number == b[j].number
    ensures FindByNumber(a, number) == FindByNumber(b, number)
  {
    var x := FindByNumber(a, number);
    var y := FindByNumber(b, number);
    if x.Some? {
      assert b[x.value].number == number;
      assert y.Some?;
      assert y.value <= x.value;
      assert a[y.value].number == number;
      assert x.value <= y.value;
    } else {
      assert forall j | 0 <= j < |b| :: b[j].number != number by {
        forall j | 0 <= j < |b| ensures b[j].number != number { assert a[j].number != number; }
      }
    }
  }

  /** For a known account the statement path succeeds exactly when its rows can be built. */
  lemma StatementKnownOutcome(m: Manager, d: Dialect, kind: FileKind, f: Frame, firstRow: seq<string>, st: Statement,
                              answer: Answer, toDatetime: string -> Option<When>)
    requires d.date in f.columns
    requires ExtractStatement(d, kind, f, firstRow) == Success(st)
    requires FindByNumber(m.accounts, st.number).Some?
    ensures var name := m.accounts[FindByNumber(m.accounts, st.number).value].name;
      && AppendHistory(m.accounts, name, st.snapshots).Some?
      && (ImportStatement(m, d, kind, f, firstRow, answer, toDatetime).Imported? <==> DialectRows(d, f, name, toDatetime).Success?)
      && (DialectRows(d, f, name, toDatetime).Success? ==>
            (ImportStatement(m, d, kind, f, firstRow, answer, toDatetime)
               == Imported(m.(accounts := AppendHistory(m.accounts, name, st.snapshots).value,
                              operations := m.operations + DialectRows(d, f, name, toDatetime).value))))
  {
    var i := FindByNumber(m.accounts, st.number).value;
    assert HasAccount(m.accounts, m.accounts[i].name);
  }

  lemma ReimportStatement(m: Manager, d: Dialect, kind: FileKind, f: Frame, firstRow: seq<string>, st: Statement,
                          answer: Answer, toDatetime: string -> Option<When>)
    requires d.date in f.columns
    requires ExtractStatement(d, kind, f, firstRow) == Success(st)
    requires FindByNumber(m.accounts, st.number).Some?
    ensures var first := ImportStatement(m, d, kind, f, firstRow, answer, toDatetime);
      var once := first.state;
      var twice := ImportStatement(once, d, kind, f, firstRow, answer, toDatetime);
      first.Imported? ==> (
        && twice.Imported?
        && |twice.state.operations| == |m.operations| + 2 * |f.rows|
        && twice.state.operations[..|once.operations|] == once.operations
        && twice.state.operations[|once.operations|..] == once.operations[|m.operations|..])
  {
    StatementKnownOutcome(m, d, kind, f, firstRow, st, answer, toDatetime);
    if ImportStatement(m, d, kind, f, firstRow, answer, toDatetime).Imported? {
      var i := FindByNumber(m.accounts, st.number).value;
      var name := m.accounts[i].name;
      var accounts1 := AppendHistory(m.accounts, name, st.snapshots).value;
      var rows := DialectRows(d, f, name, toDatetime).value;
      var once := m.(accounts := accounts1, operations := m.operations + rows);
      SameNumbersSameMatch(m.accounts, accounts1, st.number);
      assert accounts1[i].name == name;
      StatementKnownOutcome(once, d, kind, f, firstRow, st, answer, toDatetime);
      var twice := ImportStatement(once, d, kind, f, firstRow, answer, toDatetime);
      assert twice.state.operations == once.operations + rows;
      AppendedTwice(m.operations, rows, once.operations, twice.state.operations);
    }
  }

  /** Appending the same rows twice: the first result is a prefix and the tail repeats the rows. */
  lemma AppendedTwice(before: seq<Operation>, rows: seq<Operation>, once: seq<Operation>, twice: seq<Operation>)
    requires once == before + rows && twice == once + rows
    ensures |twice| == |before| + 2 * |rows|
    ensures twice[..|once|] == once && twice[|once|..] == once[|before|..]
  {
    assert once[|before|..] == rows;
  }

  /**
   * Importing a statement for a known account a second time appends its
   * rows again: nothing suppresses rows already in the ledger.
   */
  lemma ReimportAppendsAgain(m: Manager, path: string, f: Frame, firstRow: seq<string>, k: nat, st: Statement,
                             answer: Answer, mapping: Option<Mapping>, toDatetime: string -> Option<When>)
    requires Recognised(path, f, firstRow, k, st)
    requires FindByNumber(m.accounts, st.number).Some?
    ensures var first := ImportOperations(m, path, f, firstRow, answer, mapping, toDatetime);
      var once := first.state;
      var twice := ImportOperations(once, path, f, firstRow, answer, mapping, toDatetime);
      first.Imported? ==> (
        && twice.Imported?
        && |twice.state.operations| == |m.operations| + 2 * |f.rows|
        && twice.state.operations[..|once.operations|] == once.operations
        && twice.state.operations[|once.operations|..] == once.operations[|m.operations|..])
  {
    Dispatch(m, path, f, firstRow, k, st, answer, mapping, toDatetime);
    var once := ImportOperations(m, path, f, firstRow, answer, mapping, toDatetime).state;
    Dispatch(once, path, f, firstRow, k, st, answer, mapping, toDatetime);
    ReimportStatement(m, Registry[k], KindOf(path), f, firstRow, st, answer, toDatetime);
  }
}

=== FILE: ledger.dfy ===
/**
 * The budget manager's state: the account registry (a dict kept in
 * insertion order), the category list and the operations table, with the
 * three guarded inserts that grow them.
 */
module Ledger {
  import opened Wrappers
  import opened Scan
  import opened Amounts

  /** A value of the date column: a timestamp, pandas' missing date, or text never converted. */
  datatype When = Stamp(t: int) | NaT | DateText(text: string)

  /** One row of an account's balance history. */
  datatype Snapshot = Snapshot(date: When, balance: Amount)

  /** One entry of the accounts dict: its key `name`, the bank's account number, the balance history. */
  datatype Account = Account(name: string, number: string, history: seq<Snapshot>)

  /**
   * One row of the operations table. `account` and `category` are None where
   * the table holds a null; `accentedCategory` is the stray "Catégorie"
   * column that only manually mapped imports fill.
   */
  datatype Operation = Operation(
    date: When,
    name: string,
    account: Option<string>,
    amount: Amount,
    category: Option<string>,
    monthly: bool,
    accentedCategory: Option<string>)

  /** Accounts in dict insertion order, categories in list order, operations in table order. */
  datatype Manager = Manager(accounts: seq<Account>, categories: seq<string>, operations: seq<Operation>)

  datatype LedgerError =
    | DuplicateAccount(name: string)
    | UnknownAccount(name: string)
    | InvalidCategory(category: string)
    | ScalarOnlyFrame

  const Uncategorised: string := "NC"

  const DefaultCategories: seq<string> :=
    ["Revenus", "Maison", "Alimentation", "Transport", "Sortie", "Santé", Uncategorised, "Interne"]

  predicate NoDuplicates(xs: seq<string>) {
    forall i, j | 0 <= i < j < |xs| :: xs[i] != xs[j]
  }

  /** The dict invariant: no two accounts share a key. */
  predicate UniqueNames(accounts: seq<Account>) {
    forall i, j | 0 <= i < j < |accounts| :: accounts[i].name != accounts[j].name
  }

  predicate HasAccount(accounts: seq<Account>, name: string) {
    exists i | 0 <= i < |accounts| :: accounts[i].name == name
  }

  /** Where the key `name` sits in the dict, if anywhere. */
  function IndexOf(accounts: seq<Account>, name: string): (r: Option<nat>)
    ensures r.Some? ==> r.value < |accounts| && accounts[r.value].name == name
    ensures r.Some? ==> forall j | 0 <= j < r.value :: accounts[j].name != name
    ensures r.None? <==> !HasAccount(accounts, name)
  {
    First(accounts, (a: Account) => a.name == name)
  }

  /** `self.accounts[name]`, or None where Python raises KeyError. */
  function Lookup(accounts: seq<Account>, name: string): Option<Account> {
    match IndexOf(accounts, name)
    case Some(i) => Some(accounts[i])
    case None => None
  }

  /**
   * `self.accounts[a.name] = a`: a key already present keeps its place and
   * gets the new value, a new key goes last.
   */
  function Put(accounts: seq<Account>, a: Account): (r: seq<Account>)
    ensures HasAccount(accounts, a.name) ==> |r| == |accounts|
    ensures !HasAccount(accounts, a.name) ==> r == accounts + [a]
    ensures Lookup(r, a.name) == Some(a)
    ensures forall i | 0 <= i < |accounts| && accounts[i].name != a.name :: r[i] == accounts[i]
    ensures UniqueNames(accounts) ==> UniqueNames(r)
  {
    match IndexOf(accounts, a.name)
    case Some(i) =>
      var r := accounts[i := a];
      assert HasAccount(r, a.name) by { assert r[i].name == a.name; }
      assert forall j | 0 <= j < i :: r[j].name != a.name by {
        forall j | 0 <= j < i ensures r[j].name != a.name { assert r[j] == accounts[j]; }
      }
      var k := IndexOf(r, a.name);
      assert k.Some?;
      assert k.value <= i by { assert r[i].name == a.name; }
      assert k.value >= i by { assert r[k.value].name == a.name; }
      r
    case None =>
      IndexOfAppended(accounts, a);
      accounts + [a]
  }

  /** A name no entry has yet sits, once appended, at the end. */
  lemma IndexOfAppended(accounts: seq<Account>, a: Account)
    requires !HasAccount(accounts, a.name)
    ensures IndexOf(accounts + [a], a.name) == Some(|accounts|)
  {
    var all := accounts + [a];
    assert all[|accounts|].name == a.name;
    assert HasAccount(all, a.name);
  }

  /**
   * `BudgetManager()`: no accounts, the eight built-in categories, an empty
   * operations table.
   */
  function Init(): (m: Manager)
    ensures |m.accounts| == 0 && |m.operations| == 0
    ensures NoDuplicates(m.categories) && Uncategorised in m.categories
    ensures |m.categories| == 8 && m.categories[0] == "Revenus"
  {
    Manager([], DefaultCategories, [])
  }

  /** The history a new account gets when the caller passes no balance: one zero snapshot at `now`. */
  function ZeroSeed(now: int): seq<Snapshot> {
    [Snapshot(Stamp(now), Num(Decimal(0, 0)))]
  }

  /**
   * `add_account` as the program writes it. Without a balance it builds its
   * seed from two scalars, which pandas refuses with a ValueError, so that
   * call always fails after the duplicate check.
   */
  function AddAccountAsWritten(m: Manager, name: string, number: string, balance: Option<seq<Snapshot>>): (r: Result<Manager, LedgerError>)
    ensures HasAccount(m.accounts, name) ==> r == Failure(DuplicateAccount(name))
    ensures balance.None? ==> r.Failure?
    ensures r.Success? ==> r.value == m.(accounts := m.accounts + [Account(name, number, balance.value)])
    ensures !HasAccount(m.accounts, name) && balance.Some? ==>
      r == Success(m.(accounts := m.accounts + [Account(name, number, balance.value)]))
  {
    if HasAccount(m.accounts, name) then Failure(DuplicateAccount(name))
    else match balance
      case None => Failure(ScalarOnlyFrame)
      case Some(h) => Success(m.(accounts := m.accounts + [Account(name, number, h)]))
  }

  /** The discrepancy: a fresh name with no balance is refused. */
  lemma DefaultSeedRaises(m: Manager, name: string, number: string)
    requires !HasAccount(m.accounts, name)
    ensures AddAccountAsWritten(m, name, number, None) == Failure(ScalarOnlyFrame)
  {
  }

  /**
   * `add_account` as intended: a name already in the dict is refused and
   * nothing changes; otherwise exactly one entry is added, last, holding the
   * number and the given history (or a zero snapshot at `now`), and every
   * other entry and the rest of the state are untouched.
   */
  function AddAccount(m: Manager, name: string, number: string, balance: Option<seq<Snapshot>>, now: int): (r: Result<Manager, LedgerError>)
    ensures r.Failure? <==> HasAccount(m.accounts, name)
    ensures r.Failure? ==> r.error == DuplicateAccount(name)
    ensures r.Success? ==>
      && |r.value.accounts| == |m.accounts| + 1
      && r.value.accounts[..|m.accounts|] == m.accounts
      && r.value.accounts[|m.accounts|].name == name
      && r.value.accounts[|m.accounts|].number == number
      && r.value.accounts[|m.accounts|].history == (if balance.Some? then balance.value else ZeroSeed(now))
      && r.value.categories == m.categories
      && r.value.operations == m.operations
  {
    if HasAccount(m.accounts, name) then Failure(DuplicateAccount(name))
    else
      var seed := match balance case Some(h) => h case None => ZeroSeed(now);
      Success(m.(accounts := m.accounts + [Account(name, number, seed)]))
  }

  /** With an explicit balance the program's `add_account` and the corrected one agree. */
  lemma AsWrittenAgreesWithBalance(m: Manager, name: string, number: string, history: seq<Snapshot>, now: int)
    ensures AddAccountAsWritten(m, name, number, Some(history)) == AddAccount(m, name, number, Some(history), now)
  {
  }

  /** Adding an account keeps names unique, and the new name then looks up to the new entry. */
  lemma AddAccountThenLookup(m: Manager, name: string, number: string, balance: Option<seq<Snapshot>>, now: int)
    requires UniqueNames(m.accounts)
    requires AddAccount(m, name, number, balance, now).Success?
    ensures UniqueNames(AddAccount(m, name, number, balance, now).value.accounts)
    ensures Lookup(AddAccount(m, name, number, balance, now).value.accounts, name).Some?
    ensures Lookup(AddAccount(m, name, number, balance, now).value.accounts, name).value.number == number
  {
    var accounts := AddAccount(m, name, number, balance, now).value.accounts;
    var seed := match balance case Some(h) => h case None => ZeroSeed(now);
    assert accounts == Put(m.accounts, Account(name, number, seed));
  }

  /**
   * `add_operation`: an unknown account raises and nothing changes;
   * otherwise one row is appended carrying exactly the given values, earlier
   * rows and the accounts are untouched. The category is not checked
   * against the category list.
   */
  function AddOperation(m: Manager, date: When, opName: string, account: string, amount: Amount, category: string, monthly: bool): (r: Result<Manager, LedgerError>)
    ensures r.Failure? <==> !HasAccount(m.accounts, account)
    ensures r.Failure? ==> r.error == UnknownAccount(account)
    ensures r.Success? ==>
      && |r.value.operations| == |m.operations| + 1
      && r.value.operations[..|m.operations|] == m.operations
      && r.value.accounts == m.accounts
      && r.value.categories == m.categories
    ensures r.Success? ==>
      var last := r.value.operations[|m.operations|];
      && last.date == date && last.name == opName && last.account == Some(account)
      && last.amount == amount && last.category == Some(category) && last.monthly == monthly
  {
    if !HasAccount(m.accounts, account) then Failure(UnknownAccount(account))
    else Success(m.(operations := m.operations + [Operation(date, opName, Some(account), amount, Some(category), monthly, None)]))
  }

  /** Every row names an account that exists (the invariant manual entry respects). */
  predicate RowsNameAccounts(m: Manager) {
    forall i | 0 <= i < |m.operations| ::
      m.operations[i].account.Some? && HasAccount(m.accounts, m.operations[i].account.value)
  }

  /** `add_operation` preserves the invariant that every row names a registered account. */
  lemma AddOperationKeepsReferences(m: Manager, date: When, opName: string, account: string, amount: Amount, category: string, monthly: bool)
    requires RowsNameAccounts(m)
    requires AddOperation(m, date, opName, account, amount, category, monthly).Success?
    ensures RowsNameAccounts(AddOperation(m, date, opName, account, amount, category, monthly).value)
  {
  }

  /**
   * The category dialog's save: an empty name or one already listed is
   * refused and the list is unchanged; otherwise the name is appended.
   */
  function AddCategory(categories: seq<string>, category: string): (r: Result<seq<string>, LedgerError>)
    ensures r.Failure? <==> category == "" || category in categories
    ensures r.Failure? ==> r.error == InvalidCategory(category)
    ensures r.Success? ==> |r.value| == |categories| + 1 && r.value[..|categories|] == categories
    ensures r.Success? ==> r.value[|categories|] == category
    ensures r.Success? && NoDuplicates(categories) ==> NoDuplicates(r.value)
  {
    if category != "" && category !in categories then Success(categories + [category])
    else Failure(InvalidCategory(category))
  }
}

=== FILE: text.dfy ===
/** The string operations of Python the program relies on: `in`, `upper`, `lower`, `split(".")` and `\s`. */
module Text {

  /** `needle` occurs in `hay` starting at position `i`. */
  predicate OccursAt(hay: string, needle: string, i: nat) {
    i + |needle| <= |hay| && hay[i..i + |needle|] == needle
  }

  /** Python's `needle in hay` on two strings (the empty string occurs everywhere). */
  predicate Contains(hay: string, needle: string) {
    exists i: nat | i <= |hay| :: OccursAt(hay, needle, i)
  }

  /** Python's `str.startswith`. */
  predicate StartsWith(s: string, prefix: string) {
    prefix <= s
  }

  function UpperChar(c: char): char {
    if 'a' <= c <= 'z' then (c as int - 32) as char else c
  }

  function LowerChar(c: char): char {
    if 'A' <= c <= 'Z' then (c as int + 32) as char else c
  }

  /** `str.upper()` on the ASCII letters. */
  function Upper(s: string): (r: string)
    ensures |r| == |s|
    ensures forall i | 0 <= i < |s| && 'a' <= s[i] <= 'z' :: r[i] == (s[i] as int - 32) as char && 'A' <= r[i] <= 'Z'
    ensures forall i | 0 <= i < |s| && !('a' <= s[i] <= 'z') :: r[i] == s[i]
  {
    seq(|s|, i requires 0 <= i < |s| => UpperChar(s[i]))
  }

  /** `str.lower()` on the ASCII letters. */
  function Lower(s: string): (r: string)
    ensures |r| == |s|
  {
    seq(|s|, i requires 0 <= i < |s| => LowerChar(s[i]))
  }

  /** Lower-casing works character by character: it distributes over concatenation. */
  lemma LowerAppend(a: string, b: string)
    ensures Lower(a + b) == Lower(a) + Lower(b)
  {
  }

  /** The characters Python's regular expression `\s` matches in a `str` pattern. */
  predicate IsSpace(c: char) {
    var n := c as int;
    || n == 0x20 || 0x09 <= n <= 0x0D || 0x1C <= n <= 0x1F || n == 0x85 || n == 0xA0
    || n == 0x1680 || 0x2000 <= n <= 0x200A || n == 0x2028 || n == 0x2029
    || n == 0x202F || n == 0x205F || n == 0x3000
  }

  predicate IsDigit(c: char) {
    '0' <= c <= '9'
  }

  /**
   * `s.split(".")[-1]`: the text after the last '.', or all of `s` when it
   * holds no '.'.
   */
  function AfterLastDot(s: string): (r: string)
    ensures '.' !in r
    ensures |r| <= |s| && r == s[|s| - |r|..]
    ensures |r| < |s| ==> s[|s| - |r| - 1] == '.'
  {
    if |s| == 0 then ""
    else if s[|s| - 1] == '.' then ""
    else
      var init := s[..|s| - 1];
      var rest := AfterLastDot(init);
      var r := rest + [s[|s| - 1]];
      assert init[|init| - |rest|..] + [s[|s| - 1]] == s[|s| - |r|..];
      assert '.' !in r by {
        forall i | 0 <= i < |r| ensures r[i] != '.' {
          if i < |rest| { assert r[i] == rest[i]; }
        }
      }
      r
  }

  /** Appending ".ext" to any stem makes `ext` the text after the last dot. */
  lemma {:induction false} AfterLastDotOfSuffix(stem: string, ext: string)
    requires '.' !in ext
    ensures AfterLastDot(stem + "." + ext) == ext
  {
    if |ext| == 0 {
      assert (stem + "." + ext)[|stem + "." + ext| - 1] == '.';
    } else {
      var init := ext[..|ext| - 1];
      assert '.' !in init by {
        forall i | 0 <= i < |init| ensures init[i] != '.' {
          assert init[i] == ext[i];
        }
      }
      AfterLastDotOfSuffix(stem, init);
      var s := stem + "." + ext;
      assert s[..|s| - 1] == stem + "." + init;
      assert s[|s| - 1] == ext[|ext| - 1];
      assert ext[|ext| - 1] in ext;
      assert init + [ext[|ext| - 1]] == ext;
    }
  }
}

=== FILE: wrappers.dfy ===
/** Option and Result, the failure-carrying values the rest of the model returns. */
module Wrappers {

  datatype Option<+T> = None | Some(value: T)

  /** A Python call either returns a value or raises; `Failure` carries the raised error. */
  datatype Result<+T, +E> = Success(value: T) | Failure(error: E)
}

/** Ordered scans: "first element that satisfies a test", the shape of every `for ... break` in the program. */
module Scan {
  import opened Wrappers

  /** The first index at or after `from` whose element satisfies `p`. */
  function FirstFrom<T>(xs: seq<T>, p: T -> bool, from: nat): (r: Option<nat>)
    requires from <= |xs|
    ensures r.Some? ==> from <= r.value < |xs| && p(xs[r.value])
    ensures r.Some? ==> forall j | from <= j < r.value :: !p(xs[j])
    ensures r.None? ==> forall j | from <= j < |xs| :: !p(xs[j])
    decreases |xs| - from
  {
    if from == |xs| then None
    else if p(xs[from]) then Some(from)
    else FirstFrom(xs, p, from + 1)
  }

  /** The first index of `xs` whose element satisfies `p`, or None when no element does. */
  function First<T>(xs: seq<T>, p: T -> bool): (r: Option<nat>)
    ensures r.Some? ==> r.value < |xs| && p(xs[r.value])
    ensures r.Some? ==> forall j | 0 <= j < r.value :: !p(xs[j])
    ensures r.None? <==> forall j | 0 <= j < |xs| :: !p(xs[j])
  {
    FirstFrom(xs, p, 0)
  }
}
